=== FILE: README.md ===
# nefos-social API core in Dafny

A model of the request handlers behind the nefos-social REST API. This is an
Express and MongoDB back end for a small social network. The model covers:

- the token gate that admits or refuses every protected request (`jwt.js`);
- the follow graph: following, unfollowing, the paged follow listings and the
  aggregated "who I follow / who follows me" lists;
- accounts: registration with its duplicate-email check, login and token
  issue, profile lookup with the mutual-follow decoration, and the user list;
- publications: posting, the paged feed of the caller and of the people it
  follows, per-author listings, lookup, deletion by the author, and attaching
  an uploaded image with its extension whitelist;
- direct messages: sending, the paged inbox and outbox, the unviewed counter,
  and marking everything received as viewed.

The database is an immutable `Store` with four collections kept in insertion
order (`Model.dfy`). Every handler is a pure function from the store and the
request fields to an `Outcome`: the HTTP status, the kind of JSON body, and
the store it leaves behind. A query with a filter document is a
`Seqs.Filter`; `sort('-created_at')` is `Seqs.SortNewestFirst`;
`paginate(page, 4)` is `Paging.List`. Library calls and ambient values are
parameters:

- the JWT `encode` and `decode`;
- bcrypt's `hashSync` and `compare`;
- the clock (`now`, in Unix seconds);
- fresh document ids.

JavaScript semantics are modelled where the handlers depend on them:

- A field counts as present when it is truthy: present and non-empty
  (`Model.Truthy`).
- `replace(/Bearer /, '')` replaces only the first occurrence.
- `trim` strips the ECMAScript white-space set.
- `split` keeps empty pieces.
- `Math.ceil(total / 4)` is the exact integer ceiling.

Files: `Seqs.dfy`, `Text.dfy`, `Paging.dfy`, `Model.dfy`, `Jwt.dfy`,
`Follows.dfy`, `Users.dfy`, `Publications.dfy`, `Messages.dfy`.

## Model

| member | source | states |
|---|---|---|
| Jwt.TokenPayload | src/services/jwt.js:11-19 | the token carries the user's id, name, surname, email and role, and expires exactly 30 days (30 × 86400 s) after issue |
| Jwt.CreateToken | src/services/jwt.js:11-27 | a decoder that gives back every live payload gives back this token's payload at any time before its 30 days are up |
| Jwt.ExtractToken | src/services/jwt.js:40 | the token taken from the header never starts or ends with white space |
| Jwt.BearerTokenExtracted | src/services/jwt.js:40 | `Bearer <t>` yields exactly `t` for any trimmed token |
| Jwt.BareTokenExtracted | src/services/jwt.js:40 | the `Bearer ` prefix is optional: a trimmed header without it is used as the token unchanged |
| Jwt.Authenticate | src/services/jwt.js:30-50 | a falsy header is invalid; with a header, the verdict is invalid iff decoding at `now` fails and expired iff it decodes with `exp <= now`; a token that does not decode is rejected as `Undecodable`; an admitted identity is the decoded payload, and `now` is before its expiry |
| Jwt.AuthenticateUser | src/services/jwt.js:30-55 | the request proceeds with `req.user` set iff the token is admitted; an expired token gets 401 and every other failure 404 |
| Jwt.MissingHeaderLooksLikeBadToken | src/services/jwt.js:33-54 | a missing or empty header gets the same 404 as an undecodable token: the thrown 401 status is discarded by the catch block |
| Jwt.ExpiryBoundary | src/services/jwt.js:44-46 | a token is refused at the second its `exp` names and admitted one second earlier |
| Jwt.IssuedTokenAdmitted | src/services/jwt.js:11-49 | a token issued by `createToken` and sent back as `Bearer <token>` is admitted with its own payload at any time before 30 days have passed |
| Jwt.IssuedTokenExpires | src/services/jwt.js:40-53 | once 30 days have passed the same token is refused: 401 when the library still decodes it, 404 when its decoding throws |
| Follows.FollowingCounts | src/controllers/follow.controller.js:148-162 | the following list of `u` holds `x` once per stored edge `u -> x`, and holds it at all iff such an edge exists |
| Follows.FollowersCounts | src/controllers/follow.controller.js:153-167 | the follower list of `u` holds `x` once per stored edge `x -> u`, and holds it at all iff such an edge exists |
| Follows.FollowerIffFollowing | src/controllers/follow.controller.js:144-172 | `v` follows `u` as seen from `u` iff `u` is followed as seen from `v` |
| Follows.ProjectOutEdges | src/controllers/follow.controller.js:148-162 | projecting the query `{user: u}` to the `followed` field gives the following list |
| Follows.ProjectInEdges | src/controllers/follow.controller.js:153-167 | projecting the query `{followed: u}` to the `user` field gives the follower list |
| Follows.OutEdges | src/controllers/follow.controller.js:148-150 | the query `{user: u}` returns only stored edges out of `u` |
| Follows.InEdges | src/controllers/follow.controller.js:153-155 | the query `{followed: u}` returns only stored edges into `u` |
| Follows.FollowUserIds | src/controllers/follow.controller.js:144-172 | the loops return exactly the ids `u` follows and the ids following `u`, in store order; membership in each list is iff the matching edge is stored |
| Seqs.PushEach | src/controllers/follow.controller.js:159-167 | pushing the projection of each query result onto a fresh list yields the projection of the whole result, element by element and in order |
| Follows.SaveFollow | src/controllers/follow.controller.js:4-21 | answers 200 with the edge caller -> followed, appends exactly that edge and changes no other collection |
| Follows.SaveFollowExtendsRelations | src/controllers/follow.controller.js:4-21 | after a follow, the caller's following list and the target's follower list each gain the other's id at the end |
| Follows.DeleteFollow | src/controllers/follow.controller.js:24-43 | always answers 200; removes the first edge caller -> followed and keeps the other edges in their order, and changes nothing when there is no such edge |
| Follows.DeleteUndoesSave | src/controllers/follow.controller.js:4-43 | unfollowing right after following restores the follow collection up to order, and exactly, order included, when the edge was not there before |
| Follows.DeleteFollowIdempotent | src/controllers/follow.controller.js:24-43 | with at most one such edge, unfollowing twice leaves the same store as unfollowing once |
| Follows.GetFollowingUsers | src/controllers/follow.controller.js:45-83 | answers 200 with exactly the requested page (default 1) of the edges out of the path id, or of the caller when there is none; the total counts all such edges, pages is its ceiling over 4, and the decoration is the caller's own relations |
| Follows.DecorationIgnoresSubject | src/controllers/follow.controller.js:71-110 | both follow listings attach the caller's relations, whichever user's follows are listed |
| Follows.GetFollowedUser | src/controllers/follow.controller.js:85-121 | answers 200 with exactly the requested page (default 1) of the edges into the path id, the total counting all of them and pages its ceiling over 4; without a path id the default subject is undefined, so nothing matches and the total is 0 |
| Follows.GetMyFollows | src/controllers/follow.controller.js:123-142 | answers the caller's outgoing edges, whose `followed` ids are exactly its following list, or, when the `followed` segment is given, its incoming edges, whose `user` ids are exactly its follower list; both in store order |
| Users.Strip | src/controllers/user.controller.js:94-168 | a user sent to a client keeps its id, name, surname, nickname, email, role and image; only the password is dropped |
| Users.StripForgetsPassword | src/controllers/user.controller.js:136 | two users differing only in their password look the same once stripped |
| Users.StripKeepsTheRest | src/controllers/user.controller.js:136 | stripping loses nothing except the password |
| Users.RegisterUserAsWritten | src/controllers/user.controller.js:15-62 | 400 when a field is missing; "already registered" iff a stored email equals the lower-cased input; otherwise one user is appended with the email as typed, the `ROLE_USER` role, no image and the hashed password |
| Users.RegisterAsWrittenAdmitsDuplicate | src/controllers/user.controller.js:27-39 | registering the email `A` twice succeeds twice and leaves two accounts with the same email |
| Users.RegisterUser | src/controllers/user.controller.js:15-62 | 400 when a field is missing; "already registered" iff an account has the email up to letter case; otherwise one user is appended with the `ROLE_USER` role, no image and the hashed password |
| Users.RegisterKeepsEmailsUnique | src/controllers/user.controller.js:34-45 | registration keeps emails unique up to letter case |
| Users.RegisterTwiceRefused | src/controllers/user.controller.js:34-39 | a second registration with the same email in any letter case is refused and stores nothing |
| Users.LoginUser | src/controllers/user.controller.js:70-110 | 400 without email or password; 404 iff no account has exactly that email; for the first account that has it, 200 iff `compare` accepts the password against its hash and 500 otherwise; a 200 carries a token, plus the stripped user unless `gettoken` is set |
| Users.WrongPasswordRefused | src/controllers/user.controller.js:83-101 | a password that matches no stored hash never logs in |
| Users.RegisterThenLogin | src/controllers/user.controller.js:15-110 | right after registering, logging in with the same email and password succeeds and issues the new account's token |
| Users.FindByEmail | src/controllers/user.controller.js:79 | `findOne({email})` finds nothing iff no account has exactly that email, and otherwise the first account that has it |
| Users.FollowThisUser | src/controllers/user.controller.js:151-160 | with the follows collection queried, reports the edge me -> u iff it is stored and the edge u -> me iff it is stored |
| Users.Decoration | src/controllers/user.controller.js:153-155 | the two `findOne` lookups in a collection report each edge iff the collection holds it |
| Users.FollowThisUserAsWritten | src/controllers/user.controller.js:151-160 | as written, querying the collection `user` that no handler writes, neither edge is ever reported |
| Users.FollowThisUserAsWrittenMissesEdges | src/controllers/user.controller.js:153-155 | with an edge either way stored, the handler as written reports none while the intended lookup reports one |
| Users.FollowThisUserAgreesWithRelations | src/controllers/user.controller.js:151-160 | the profile decoration agrees with the caller's aggregated following and follower lists |
| Users.GetUser | src/controllers/user.controller.js:119-143 | 400 for an id that is not 24 hex digits; 200 iff an account has the id, with hex digits read in either case, answered with the stripped account, `following` equal to the edge caller -> id when it is stored and null otherwise, and `followed` likewise for id -> caller; 404 otherwise |
| Users.ObjectIdIgnoresCase | src/controllers/user.controller.js:125 | an id is valid iff its lower-cased spelling is |
| Users.GetUserIgnoresHexCase | src/controllers/user.controller.js:125-132 | an id and its lower-cased spelling get the same status and, when found, the same account |
| Users.GetUsers | src/controllers/user.controller.js:162-170 | every account in store order, each without its password |
| Publications.SavePublicationAsWritten | src/controllers/publication.controller.js:15-49 | the store never changes; a falsy text gets 200 with "text required", and a truthy text always gets 500 |
| Publications.SavePublicationAsWrittenNeverStores | src/controllers/publication.controller.js:32-48 | as written a publication is never stored, where the corrected handler stores exactly one |
| Publications.SavePublication | src/controllers/publication.controller.js:15-45 | a falsy text gets 200 with "text required" and no change; otherwise one publication by the caller, stamped `now` and without a file, is appended |
| Publications.FeedScope | src/controllers/publication.controller.js:62-73 | the scope is the caller's following list in store order, then the caller; an id is in scope iff it is the caller or the caller follows it |
| Publications.FeedMatches | src/controllers/publication.controller.js:75 | newest first; contains a publication iff its author is in scope, with every copy kept |
| Publications.GetPublications | src/controllers/publication.controller.js:52-97 | 200 with exactly the requested page (default 1) of the newest-first feed; the total counts the whole feed and pages is its ceiling over 4 |
| Publications.FeedScenario | src/controllers/publication.controller.js:62-75 | when `a` follows `b` but not the reverse, `a` sees both users' posts and `b` sees only its own |
| Publications.AuthorMatches | src/controllers/publication.controller.js:116 | newest first; holds exactly the author's publications, every copy kept |
| Publications.GetPublicationsUser | src/controllers/publication.controller.js:101-133 | exactly the requested page (default 1) of the newest-first publications of the path user, or of the caller when there is none; the total counts all of them and pages is its ceiling over 4 |
| Publications.GetPublication | src/controllers/publication.controller.js:136-149 | 200 iff a publication has the id, answered with that publication; otherwise 404 |
| Publications.DeletePublication | src/controllers/publication.controller.js:152-173 | removes every publication of the caller with the id and keeps all others with their multiplicity; 200 iff exactly one was removed, else 404 |
| Publications.DeletePublicationTwice | src/controllers/publication.controller.js:152-173 | deleting again removes nothing and answers 404 |
| Publications.AttachFile | src/controllers/publication.controller.js:195 | only the publications with the id get the file name; every other one is unchanged |
| Publications.UploadImageAsWritten | src/controllers/publication.controller.js:176-223 | without `req.files` no answer; without `image`, or with a path of fewer than three segments, 500 and no change; an extension outside the whitelist changes nothing; otherwise the image is attached iff some publication has the id, owned by the caller or not, and 404 without one; the publication answered is a stored one with that id carrying the new file, exactly as it now sits in the store |
| Publications.UploadImage | src/controllers/publication.controller.js:176-221 | the same crash and extension answers; with a whitelisted extension, no permission and no change unless the caller owns a publication with the id, in which case the image is attached with 200, every publication with that id gets the file name, and the publication answered is a stored one with that id carrying the new file, exactly as it now sits in the store |
| Publications.UploadedName | src/controllers/publication.controller.js:182-184 | the name is the third backslash-separated piece; it exists iff the path has at least two backslashes, and it holds none |
| Publications.ExtensionOf | src/controllers/publication.controller.js:185-186 | the extension is the second dot-separated piece; it exists iff the name has a dot, and it holds none |
| Publications.UploadExtension | src/controllers/publication.controller.js:182-186 | the extension of a path is the extension of its name, and absent without a name |
| Publications.Updated | src/controllers/publication.controller.js:195-207 | `findByIdAndUpdate` with `new: true` finds nothing iff no publication has the id, and otherwise returns one with that id and the file set |
| Publications.UploadSparesOthers | src/controllers/publication.controller.js:190-195 | when publication ids are unique, an upload never changes another user's publication |
| Publications.UploadedExtension | src/controllers/publication.controller.js:182-186 | the path `d1\d2\stem.ext` yields the name `stem.ext` and the extension `ext` |
| Publications.UploadedNameOf | src/controllers/publication.controller.js:182-184 | the path `d1\d2\name` yields the name `name`, dots included |
| Publications.ExtensionAfterFirstDot | src/controllers/publication.controller.js:185-186 | `stem.ext.rest` has the extension `ext`, whatever follows it |
| Publications.DoubleExtensionRefused | src/controllers/publication.controller.js:185-188 | a name such as `a.b.png` is judged by `b` and refused when `b` is not whitelisted, changing nothing |
| Publications.JpegRejected | src/controllers/publication.controller.js:188-221 | a `.jpeg` upload is refused and changes nothing, while `.jepg` is on the whitelist |
| Publications.JpegNotWhitelisted | src/controllers/publication.controller.js:188 | the whitelist admits the misspelling `jepg` and refuses `jpeg` |
| Publications.UploadExtensionOf | src/controllers/publication.controller.js:182-186 | the upload `d1\d2\stem.ext` has a name and its extension is `ext` |
| Publications.UploadAsWrittenIgnoresOwner | src/controllers/publication.controller.js:190-195 | as written a non-owner attaches an image to someone else's publication; the corrected handler refuses and changes nothing |
| Messages.SaveMessage | src/controllers/message.controller.js:6-32 | 200 asking for the data, with no change, iff text or receiver is falsy; otherwise the message is stored: one message is appended from the caller to the receiver, stamped `now` and unviewed |
| Messages.Inbox | src/controllers/message.controller.js:47-49 | newest first; holds exactly the messages received by the user, every copy kept |
| Messages.Outbox | src/controllers/message.controller.js:76-77 | newest first; holds exactly the messages sent by the user, every copy kept |
| Messages.GetReceivedMessages | src/controllers/message.controller.js:35-62 | 200 with exactly the requested page (default 1) of the caller's newest-first inbox; the total counts all of it and pages is its ceiling over 4 |
| Messages.GetEmitMessages | src/controllers/message.controller.js:64-89 | 200 with exactly the requested page (default 1) of the caller's newest-first outbox; the total counts all of it and pages is its ceiling over 4 |
| Messages.SentMessageListed | src/controllers/message.controller.js:6-76 | a sent message appears in the receiver's inbox and the sender's outbox, and each grows by exactly one |
| Messages.InboxGrows | src/controllers/message.controller.js:6-76 | appending a message puts it in its receiver's inbox, which grows by exactly one |
| Messages.OutboxGrows | src/controllers/message.controller.js:6-76 | appending a message puts it in its emitter's outbox, which grows by exactly one |
| Messages.UnviewedCount | src/controllers/message.controller.js:95 | counts exactly the messages the user received whose `viewed` is `'false'` |
| Messages.GetUnviewedMessages | src/controllers/message.controller.js:91-103 | always 200 with the number of the caller's received messages that are still unviewed |
| Messages.SaveMessageNotifiesReceiver | src/controllers/message.controller.js:14-95 | sending raises the receiver's unviewed count by one and leaves everyone else's unchanged |
| Messages.MarkViewed | src/controllers/message.controller.js:109 | keeps every message and its place; changes only `viewed`, and only on the user's unviewed messages, to `'true'` |
| Messages.MarkViewedSnoc | src/controllers/message.controller.js:109 | the update applies message by message: marking one more message marks the prefix and that message |
| Messages.MarkViewedPrefix | src/controllers/message.controller.js:109 | marking every message marks all but the last exactly as marking those alone would |
| Messages.Mark | src/controllers/message.controller.js:109 | an unviewed message of the user becomes viewed; any other message keeps its `viewed`; no other field changes |
| Messages.SetViewedMessages | src/controllers/message.controller.js:105-120 | always 200, reporting as matched and modified the number of the caller's unviewed messages; only the message collection changes |
| Messages.MarkViewedClears | src/controllers/message.controller.js:109 | after marking, the user has no unviewed message |
| Messages.MarkViewedSparesOthers | src/controllers/message.controller.js:109 | marking does not change any other user's unviewed count |
| Messages.MarkViewedIdempotent | src/controllers/message.controller.js:109 | marking twice is the same as marking once |
| Messages.KeepsReceivedStep | src/controllers/message.controller.js:47-109 | if marking commutes with a user's inbox query on some messages, it still does with one more message |
| Messages.MarkViewedKeepsReceived | src/controllers/message.controller.js:47-109 | what any user received after marking is what they received before, with the marking applied |
| Messages.SetViewedTwice | src/controllers/message.controller.js:105-120 | a second call matches nothing and changes nothing, and other users' counters never move |
| Text.Trim | src/services/jwt.js:40 | the result has no white space at either end, and only white space was removed from the front and the back |
| Text.TrimKeepsTrimmed | src/services/jwt.js:40 | trimming a string without surrounding white space leaves it unchanged |
| Text.ReplaceFirst | src/services/jwt.js:40 | without an occurrence the string is unchanged; otherwise exactly the first occurrence is replaced |
| Text.Split | src/controllers/publication.controller.js:183-186 | at least one piece, none holding the separator |
| Text.SplitCount | src/controllers/publication.controller.js:183-186 | a split has one piece more than the string has separators |
| Text.Lower | src/controllers/user.controller.js:34 | same length, every character lower-cased |
| Text.SplitJoin | src/controllers/publication.controller.js:183-186 | splitting a join of separator-free pieces gives back the pieces |
| Text.JoinSplit | src/controllers/publication.controller.js:183-186 | joining the pieces of a split gives back the string |
| Text.LowerIdempotent | src/controllers/user.controller.js:34 | lower-casing twice is lower-casing once |
| Paging.PageCount | src/controllers/publication.controller.js:94 | the fewest pages of 4 that hold `total` items |
| Paging.Page | src/controllers/publication.controller.js:76 | at most 4 items, all from the list; empty outside pages 1 to `pages`; full on every page before the last |
| Paging.PagesCoverAll | src/controllers/publication.controller.js:76-94 | reading pages 1 to `pages` in turn lists every item exactly once, in order |
| Paging.PageIsNewestFirst | src/controllers/publication.controller.js:75-76 | a page of a newest-first list is newest-first |
| Paging.List | src/controllers/message.controller.js:39-58 | the total is the number of matches, pages is its ceiling over 4, the page defaults to 1, and the items are that page |
| Seqs.SortNewestFirst | src/controllers/message.controller.js:49 | `sort('-created_at')` returns a permutation in non-increasing creation time |
| Seqs.Filter | src/controllers/message.controller.js:47 | a query with a filter document returns stored documents that match, and every matching document |
| Seqs.FilterSnoc | src/controllers/message.controller.js:47 | a query over one more document returns the earlier matches and that document iff it matches |
| Seqs.RemoveFirst | src/controllers/follow.controller.js:30-33 | `findOneAndDelete` removes one copy of the document, and changes nothing when there is none |
| Seqs.FirstIndex | src/controllers/follow.controller.js:30-33 | the position `findOneAndDelete` deletes at: it holds the document and no earlier position does |
| Seqs.RemoveFirstAt | src/controllers/follow.controller.js:30-33 | `findOneAndDelete` removes exactly the first matching document and keeps the rest in their order |
| Seqs.RemoveFirstAppended | src/controllers/follow.controller.js:4-43 | deleting a document that was only just inserted, and was not there before, gives back the original collection |
| Seqs.First | src/controllers/user.controller.js:79 | `findOne` gives nothing iff no document matches; otherwise the first match in store order |

## Left out

- Database and library errors are left out. The model has no 500 answer for a failed query, save, hash or `compare` call. Only the 500 answers the handlers' own logic produces are modelled.
- `populate` is left out. Listings return the stored references, not the joined user documents.
- Page numbers from the path are taken as integers. A non-numeric segment is not modelled. Pages below 1 yield an empty page rather than whatever the pagination plug-in does.
- Calendar effects of `moment().add(30, 'days')` are left out: a day is always 86400 seconds. The JWT library's own `exp` check, which throws for a token past its expiry, is part of the `decode` parameter, which is therefore given the clock.
- Jwt.IssuedTokenExpires: promises only that an expired token is refused, 401 or 404 depending on whether the library still decodes it, because the library's exact expiry rule is not modelled.
- `toLowerCase` lower-cases only ASCII letters.
- `ObjectId.isValid` accepts only 24 hexadecimal digits. Its 12-character-string case is left out.
- The order among documents with equal `created_at` is left out, because the database does not fix it. Sorting is specified only as a newest-first permutation.
- `getImageFile` and `removeFilesOfUploads` are left out because they are file-system I/O. A removed upload is modelled only as an answer that changes nothing.
- `updateUser` is left out. It is a named export of the user controller, but it is missing from the default export (src/controllers/user.controller.js:222-226) and its route is commented out (src/routes/user.routes.js:16). Its body reads the undefined `users` and `findByIdAndUpdate`. The commented-out user handlers are left out too.
- The register response body is left out. It sends the `registerUser` function object with a `password` property. The model reports only "registered".
- Routing, the app set-up and the database connection (`src/app.js`, `src/index.js`, `src/routes/`) are left out.
- The follow and publication schema files are not part of this model. Their records are modelled with the fields the handlers read and write.
- Follows.SaveFollow: `followed` is taken as given, so self-follows and duplicate edges are stored as the handler would pass them on. An absent `followed` body field is not modelled: every modelled edge has a `followed` id.
- Follows.GetFollowedUser: "no path id matches nothing" relies on every edge having a `followed` id. An edge saved without one could be matched by `{followed: undefined}` under MongoDB's null matching, which is not modelled.
- Publications.AttachFile: updates every publication with the id, where `findByIdAndUpdate` updates at most one. The two agree because publication ids are unique, which the model assumes rather than enforces.
- The `Publications`, `messagesSent` and `messagesReceived` arrays of the user class are left out. No handler reads them.
- Several identifiers are undefined in the source: `_find`, `findOneAndDelete`, `handleError` and `req.user.suneb`. The message class also lacks `save`, `find`, `countDocuments` and `update`. As written, each would throw. The handlers are modelled by the query each names, except `req.user.suneb`, which is modelled as the undefined value it is.
- `followThisUser` queries the collection `user`, not `follows` (see Findings). Users.GetUser uses the intended lookup, Users.FollowThisUser.
- A request whose `req.files` lacks `image` throws a TypeError in `uploadImage`; the application's error handler (src/app.js:19-27) answers it with 500, modelled as `UploadCrashed`. The same holds for an upload path with fewer than three segments.
- Request fields are modelled as strings or absent. A body field of another JSON type is not modelled: a non-string `email` in `saveUser` makes `toLowerCase` throw, answered 500 (src/controllers/user.controller.js:34), and an object `email` in `loginUser` is read by the database as a query operator (src/controllers/user.controller.js:79).
- Publications.UploadImage: the 404 of `findByIdAndUpdate` is not reached once the caller's publication was found, because a concurrent deletion between the two queries is not modelled.

## Findings

| source | as written | input that shows it | evidently intended | confidence | as-written member | corrected member |
|---|---|---|---|---|---|---|
| src/controllers/user.controller.js:27, src/controllers/user.controller.js:34-39 | the duplicate check lower-cases the input email but the email is stored as typed | register email `A`, then register `A` again: the lookup searches `a`, finds nothing, and a second account with `A` is stored | emails unique up to letter case | high, not executed | Users.RegisterAsWrittenAdmitsDuplicate | Users.RegisterKeepsEmailsUnique |
| src/controllers/publication.controller.js:32, src/controllers/publication.controller.js:46-48 | `getDatabase` and `userId` are not defined in the controller, so every request with text throws and is answered 500 | any body with a non-empty `text` | the publication is stored and returned with 200 | high, not executed | Publications.SavePublicationAsWrittenNeverStores | Publications.SavePublication |
| src/controllers/publication.controller.js:190-195 | the ownership check tests the array returned by `find`, which is truthy even when empty | caller `b` uploads `x\y\img.png` for a publication owned by `a`: the file is attached | only the author may attach an image | high, not executed | Publications.UploadAsWrittenIgnoresOwner | Publications.UploadSparesOthers |
| src/controllers/user.controller.js:153-155 | both lookups of `followThisUser` query the collection `user`, which no handler writes, instead of `follows` | caller `a` follows `b`, then `a` fetches the profile of `b`: `following` is null although the edge is stored | the edges are looked up in the follows collection | high, not executed | Users.FollowThisUserAsWrittenMissesEdges | Users.FollowThisUserAgreesWithRelations |

=== FILE: Follows.dfy ===
/** The follow graph: the aggregation `followUserIds`, and the handlers that
    create, delete and list follow edges.

    `followUserIds` and the three listing handlers call `_find`, and
    `deleteFollow` calls `findOneAndDelete`; the controller neither defines
    nor imports either, so as written each of those throws a ReferenceError
    at that call. The model gives the query each call evidently intends
    against the follows collection. `saveFollow` uses the `Follow` model's
    own `save`.
 */
module Follows {
  import opened Seqs
  import opened Model
  import opened Paging

  /** The `followed` id of each edge out of `u`, in store order, duplicates kept. */
  function FollowingOf(fs: seq<Follow>, u: Id): (r: seq<Id>)
    ensures |r| <= |fs|
    decreases |fs|
  {
    if |fs| == 0 then []
    else
      var e := fs[|fs| - 1];
      FollowingOf(fs[..|fs| - 1], u) + (if e.user == u then [e.followed] else [])
  }

  /** The `user` id of each edge into `u`, in store order, duplicates kept. */
  function FollowersOf(fs: seq<Follow>, u: Id): (r: seq<Id>)
    ensures |r| <= |fs|
    decreases |fs|
  {
    if |fs| == 0 then []
    else
      var e := fs[|fs| - 1];
      FollowersOf(fs[..|fs| - 1], u) + (if e.followed == u then [e.user] else [])
  }

  /** `x` appears in `u`'s following list once per stored edge `u -> x`. */
  lemma {:induction false} FollowingCounts(fs: seq<Follow>, u: Id, x: Id)
    ensures multiset(FollowingOf(fs, u))[x] == multiset(fs)[Follow(u, x)]
    ensures x in FollowingOf(fs, u) <==> Follow(u, x) in fs
    decreases |fs|
  {
    if |fs| > 0 {
      var n := |fs| - 1;
      assert fs == fs[..n] + [fs[n]];
      assert multiset(fs) == multiset(fs[..n]) + multiset{fs[n]};
      FollowingCounts(fs[..n], u, x);
    }
  }

  /** `x` appears in `u`'s follower list once per stored edge `x -> u`. */
  lemma {:induction false} FollowersCounts(fs: seq<Follow>, u: Id, x: Id)
    ensures multiset(FollowersOf(fs, u))[x] == multiset(fs)[Follow(x, u)]
    ensures x in FollowersOf(fs, u) <==> Follow(x, u) in fs
    decreases |fs|
  {
    if |fs| > 0 {
      var n := |fs| - 1;
      assert fs == fs[..n] + [fs[n]];
      assert multiset(fs) == multiset(fs[..n]) + multiset{fs[n]};
      FollowersCounts(fs[..n], u, x);
    }
  }

  /** The two lists are two views of one relation. */
  lemma FollowerIffFollowing(fs: seq<Follow>, u: Id, v: Id)
    ensures v in FollowersOf(fs, u) <==> u in FollowingOf(fs, v)
  {
    FollowersCounts(fs, u, v);
    FollowingCounts(fs, v, u);
  }

  /** The query `{ user: u }`. */
  function OutEdges(fs: seq<Follow>, u: Id): (r: seq<Follow>)
    ensures forall i :: 0 <= i < |r| ==> r[i] in fs && r[i].user == u
  {
    Filter(fs, (e: Follow) => e.user == u)
  }

  /** The query `{ followed: u }`. */
  function InEdges(fs: seq<Follow>, u: Id): (r: seq<Follow>)
    ensures forall i :: 0 <= i < |r| ==> r[i] in fs && r[i].followed == u
  {
    Filter(fs, (e: Follow) => e.followed == u)
  }

  function FollowedId(e: Follow): Id { e.followed }

  function FollowerId(e: Follow): Id { e.user }

  /** Projecting the edges out of `u` to their targets gives `u`'s following list. */
  lemma {:induction false} ProjectOutEdges(fs: seq<Follow>, u: Id)
    ensures Map(OutEdges(fs, u), FollowedId) == FollowingOf(fs, u)
    decreases |fs|
  {
    if |fs| > 0 {
      var n := |fs| - 1;
      ProjectOutEdges(fs[..n], u);
      var prev := OutEdges(fs[..n], u);
      if fs[n].user == u {
        assert OutEdges(fs, u) == prev + [fs[n]];
        assert (prev + [fs[n]])[..|prev|] == prev;
      } else {
        assert OutEdges(fs, u) == prev;
      }
    }
  }

  /** Projecting the edges into `u` to their sources gives `u`'s follower list. */
  lemma {:induction false} ProjectInEdges(fs: seq<Follow>, u: Id)
    ensures Map(InEdges(fs, u), FollowerId) == FollowersOf(fs, u)
    decreases |fs|
  {
    if |fs| > 0 {
      var n := |fs| - 1;
      ProjectInEdges(fs[..n], u);
      var prev := InEdges(fs[..n], u);
      if fs[n].followed == u {
        assert InEdges(fs, u) == prev + [fs[n]];
        assert (prev + [fs[n]])[..|prev|] == prev;
      } else {
        assert InEdges(fs, u) == prev;
      }
    }
  }

  /** The ids `u` follows and the ids that follow `u`. */
  datatype Relations = Relations(following: seq<Id>, followed: seq<Id>)

  function RelationsOf(fs: seq<Follow>, u: Id): Relations
  {
    Relations(FollowingOf(fs, u), FollowersOf(fs, u))
  }

  /** `followUserIds(u)`: two queries, each result projected to the peer id
      by pushing it onto a fresh list. */
  method FollowUserIds(fs: seq<Follow>, u: Id) returns (rel: Relations)
    ensures rel.following == FollowingOf(fs, u)
    ensures rel.followed == FollowersOf(fs, u)
    ensures forall x :: x in rel.following <==> Follow(u, x) in fs
    ensures forall x :: x in rel.followed <==> Follow(x, u) in fs
  {
    var following := PushEach(OutEdges(fs, u), FollowedId);
    ProjectOutEdges(fs, u);
    var followed := PushEach(InEdges(fs, u), FollowerId);
    ProjectInEdges(fs, u);
    rel := Relations(following, followed);
    forall x ensures x in rel.following <==> Follow(u, x) in fs {
      FollowingCounts(fs, u, x);
    }
    forall x ensures x in rel.followed <==> Follow(x, u) in fs {
      FollowersCounts(fs, u, x);
    }
  }

  datatype FollowMessage = FollowStored(follow: Follow) | FollowDeleted

  /** `saveFollow`: stores the edge caller -> `followed` with no self-follow
      or duplicate check. */
  function SaveFollow(st: Store, caller: Id, followed: Id): (out: Outcome<FollowMessage>)
    ensures out.response == Response(200, FollowStored(Follow(caller, followed)))
    ensures multiset(out.store.follows) == multiset(st.follows) + multiset{Follow(caller, followed)}
    ensures |out.store.follows| == |st.follows| + 1 && out.store.follows[..|st.follows|] == st.follows
    ensures out.store.(follows := st.follows) == st
  {
    var edge := Follow(caller, followed);
    Outcome(Response(200, FollowStored(edge)), st.(follows := st.follows + [edge]))
  }

  /** A new edge goes to the end of both lists of its endpoints. */
  lemma SaveFollowExtendsRelations(st: Store, caller: Id, followed: Id)
    ensures FollowingOf(SaveFollow(st, caller, followed).store.follows, caller)
              == FollowingOf(st.follows, caller) + [followed]
    ensures FollowersOf(SaveFollow(st, caller, followed).store.follows, followed)
              == FollowersOf(st.follows, followed) + [caller]
  {
    var fs := st.follows + [Follow(caller, followed)];
    assert fs[..|fs| - 1] == st.follows;
  }

  /** `deleteFollow`: removes the first edge caller -> `followedId`
      (`findOneAndDelete`) and answers success whether or not one matched. */
  function DeleteFollow(st: Store, caller: Id, followedId: Id): (out: Outcome<FollowMessage>)
    ensures out.response == Response(200, FollowDeleted)
    ensures multiset(out.store.follows) == multiset(st.follows) - multiset{Follow(caller, followedId)}
    ensures Follow(caller, followedId) !in st.follows ==> out.store == st
    ensures Follow(caller, followedId) in st.follows ==>
              var i := FirstIndex(st.follows, Follow(caller, followedId));
              out.store.follows == st.follows[..i] + st.follows[i + 1..]
    ensures out.store.(follows := st.follows) == st
  {
    var edge := Follow(caller, followedId);
    var out := Outcome(Response(200, FollowDeleted), st.(follows := RemoveFirst(st.follows, edge)));
    if edge in st.follows then RemoveFirstAt(st.follows, edge); out else out
  }

  /** Unfollowing right after following restores the follow collection up to
      order, and exactly when the edge was not there before. */
  lemma DeleteUndoesSave(st: Store, caller: Id, followed: Id)
    ensures multiset(DeleteFollow(SaveFollow(st, caller, followed).store, caller, followed).store.follows)
              == multiset(st.follows)
    ensures Follow(caller, followed) !in st.follows ==>
              DeleteFollow(SaveFollow(st, caller, followed).store, caller, followed).store == st
  {
    if Follow(caller, followed) !in st.follows {
      RemoveFirstAppended(st.follows, Follow(caller, followed));
    }
  }

  /** With at most one such edge, unfollowing twice is unfollowing once. */
  lemma DeleteFollowIdempotent(st: Store, caller: Id, followedId: Id)
    requires multiset(st.follows)[Follow(caller, followedId)] <= 1
    ensures DeleteFollow(DeleteFollow(st, caller, followedId).store, caller, followedId)
              == DeleteFollow(st, caller, followedId)
  {
    var once := DeleteFollow(st, caller, followedId).store;
    assert multiset(once.follows)[Follow(caller, followedId)] == 0;
  }

  /** A page of edges, decorated with the caller's own relations. */
  datatype FollowPage = FollowPage(listing: Listing<Follow>, relations: Relations)

  /** `getFollowingUsers`: the edges out of the subject (the caller unless the
      path names an id), one page of 4. */
  function GetFollowingUsers(st: Store, caller: Id, idParam: Option<Id>, pageParam: Option<int>)
    : (r: Response<FollowPage>)
    ensures r.status == 200
    ensures var subject := if Truthy(idParam) then idParam.value else caller;
            && r.body.listing.total == |FollowingOf(st.follows, subject)|
            && (forall i :: 0 <= i < |r.body.listing.items| ==>
                  r.body.listing.items[i] in st.follows && r.body.listing.items[i].user == subject)
    ensures r.body.listing.pages == PageCount(r.body.listing.total)
    ensures pageParam.None? ==> r.body.listing.page == 1
    ensures pageParam.Some? ==> r.body.listing.page == pageParam.value
    ensures var subject := if Truthy(idParam) then idParam.value else caller;
            r.body.listing.items == Page(OutEdges(st.follows, subject), r.body.listing.page)
    ensures |r.body.listing.items| <= PageSize
    ensures r.body.relations.following == FollowingOf(st.follows, caller)
    ensures r.body.relations.followed == FollowersOf(st.follows, caller)
  {
    var subject := if Truthy(idParam) then idParam.value else caller;
    var edges := OutEdges(st.follows, subject);
    ProjectOutEdges(st.follows, subject);
    // The page is decorated with the caller's relations, not the subject's.
    Response(200, FollowPage(List(edges, pageParam), RelationsOf(st.follows, caller)))
  }

  /** The decoration ignores whose follows are listed. */
  lemma DecorationIgnoresSubject(st: Store, caller: Id, a: Option<Id>, b: Option<Id>, page: Option<int>)
    ensures GetFollowingUsers(st, caller, a, page).body.relations
              == GetFollowingUsers(st, caller, b, page).body.relations
    ensures GetFollowedUser(st, caller, a, page).body.relations
              == GetFollowingUsers(st, caller, b, page).body.relations
  {
  }

  /** `getFollowedUser`: the edges into the subject. The default subject is
      `req.user.suneb`, which is undefined, so without a path id the query
      `{ followed: undefined }` matches no stored edge: every modelled edge
      has a `followed` id. */
  function GetFollowedUser(st: Store, caller: Id, idParam: Option<Id>, pageParam: Option<int>)
    : (r: Response<FollowPage>)
    ensures r.status == 200
    ensures !Truthy(idParam) ==> r.body.listing.total == 0 && r.body.listing.items == []
    ensures Truthy(idParam) ==>
              && r.body.listing.total == |FollowersOf(st.follows, idParam.value)|
              && (forall i :: 0 <= i < |r.body.listing.items| ==>
                    r.body.listing.items[i] in st.follows
                    && r.body.listing.items[i].followed == idParam.value)
              && r.body.listing.items == Page(InEdges(st.follows, idParam.value), r.body.listing.page)
    ensures r.body.listing.pages == PageCount(r.body.listing.total)
    ensures pageParam.None? ==> r.body.listing.page == 1
    ensures pageParam.Some? ==> r.body.listing.page == pageParam.value
    ensures |r.body.listing.items| <= PageSize
    ensures r.body.relations.following == FollowingOf(st.follows, caller)
    ensures r.body.relations.followed == FollowersOf(st.follows, caller)
  {
    var relations := RelationsOf(st.follows, caller);
    if Truthy(idParam) then
      ProjectInEdges(st.follows, idParam.value);
      Response(200, FollowPage(List(InEdges(st.follows, idParam.value), pageParam), relations))
    else
      Response(200, FollowPage(List([], pageParam), relations))
  }

  /** `getMyFollows`: the caller's outgoing edges, or its incoming ones when
      the `followed` path segment is present; unpaginated. */
  function GetMyFollows(st: Store, caller: Id, followedParam: Option<string>): (r: Response<seq<Follow>>)
    ensures r.status == 200
    ensures !Truthy(followedParam) ==>
              && Map(r.body, FollowedId) == FollowingOf(st.follows, caller)
              && (forall i :: 0 <= i < |r.body| ==> r.body[i].user == caller)
              && forall e :: e in r.body <==> e in st.follows && e.user == caller
    ensures Truthy(followedParam) ==>
              && Map(r.body, FollowerId) == FollowersOf(st.follows, caller)
              && (forall i :: 0 <= i < |r.body| ==> r.body[i].followed == caller)
              && forall e :: e in r.body <==> e in st.follows && e.followed == caller
  {
    if Truthy(followedParam) then
      ProjectInEdges(st.follows, caller);
      Response(200, InEdges(st.follows, caller))
    else
      ProjectOutEdges(st.follows, caller);
      Response(200, OutEdges(st.follows, caller))
  }
}

=== FILE: Jwt.dfy ===
/** The bearer-token service: the payload a login token carries and the gate
    every protected route passes through.

    The signing library is a pair of parameters: `encode` turns a payload into
    a token string and `decode` gives back the payload, or `None` when it
    throws. `decode` is given the clock because the library throws not only
    for a malformed token or a bad signature but also, by its own `exp`
    check, for a token already past its expiry. The clock is the parameter
    `now`, in Unix seconds.
 */
module Jwt {
  import opened Seqs
  import opened Text
  import opened Model

  const SecondsPerDay: int := 86400

  /** `moment().add(30, 'days')`: a token lives for thirty days. */
  const TokenLifetime: int := 30 * SecondsPerDay

  /** The claims of a token. */
  datatype Payload = Payload(
    sub: Id,
    name: string,
    surname: string,
    email: string,
    role: string,
    exp: int)

  /** The claims `createToken` puts in the token of `u`, issued at `now`. */
  function TokenPayload(u: User, now: int): (p: Payload)
    ensures p.sub == u.id && p.name == u.name && p.surname == u.surname
    ensures p.email == u.email && p.role == u.role
    ensures p.exp - now == 30 * 86400
  {
    Payload(u.id, u.name, u.surname, u.email, u.role, now + TokenLifetime)
  }

  /** `createToken(user)`: the encoded payload, which the matching decoder
      gives back. */
  function CreateToken(u: User, now: int, encode: Payload -> string): (token: string)
    ensures forall decode: (string, int) -> Option<Payload>, t: int ::
              DecodesLive(decode, encode) && t < now + TokenLifetime ==>
                decode(token, t) == Some(TokenPayload(u, now))
  {
    encode(TokenPayload(u, now))
  }

  /** `decode` gives back every payload `encode` signed, as long as the
      payload has not expired. */
  ghost predicate DecodesLive(decode: (string, int) -> Option<Payload>, encode: Payload -> string)
  {
    forall p: Payload, t: int :: t < p.exp ==> decode(encode(p), t) == Some(p)
  }

  /** `decode` never yields a payload other than the one `encode` signed: it
      either gives that payload back or fails. */
  ghost predicate NeverForges(decode: (string, int) -> Option<Payload>, encode: Payload -> string)
  {
    forall p: Payload, t: int :: decode(encode(p), t).Some? ==> decode(encode(p), t) == Some(p)
  }

  const BearerPrefix: string := "Bearer "

  /** `authorization.replace(/Bearer /, '').trim()`. */
  function ExtractToken(header: string): (token: string)
    ensures Trimmed(token)
  {
    Trim(ReplaceFirst(header, BearerPrefix, ""))
  }

  /** `Bearer <t>` yields `t` for any token without surrounding white space,
      even one that itself contains `Bearer `. */
  lemma BearerTokenExtracted(t: string)
    requires Trimmed(t)
    ensures ExtractToken(BearerPrefix + t) == t
  {
    ReplaceLeadingPattern(BearerPrefix, t);
    TrimKeepsTrimmed(t);
  }

  /** The prefix is optional: a bare token is accepted as it is. */
  lemma BareTokenExtracted(t: string)
    requires Trimmed(t)
    requires forall i: nat :: i <= |t| ==> !OccursAt(t, BearerPrefix, i)
    ensures ExtractToken(t) == t
  {
    ReplaceAbsentPattern(t, BearerPrefix, "");
    TrimKeepsTrimmed(t);
  }

  /** Why a token was found invalid. */
  datatype Rejection = MissingHeader | Undecodable

  /** The gate's decision, with the failure kinds kept apart. */
  datatype Verdict = Admitted(identity: Payload) | Expired | Invalid(reason: Rejection)

  /** The decision `authenticateUser` takes for an `Authorization` header. */
  function Authenticate(header: Option<string>, decode: (string, int) -> Option<Payload>, now: int): (v: Verdict)
    ensures !Truthy(header) ==> v == Invalid(MissingHeader)
    ensures Truthy(header) ==> (v.Invalid? <==> decode(ExtractToken(header.value), now).None?)
    ensures Truthy(header) && decode(ExtractToken(header.value), now).None? ==> v == Invalid(Undecodable)
    ensures v.Expired? <==> Truthy(header) && decode(ExtractToken(header.value), now).Some?
                            && decode(ExtractToken(header.value), now).value.exp <= now
    ensures v.Admitted? ==> Truthy(header) && now < v.identity.exp
                            && decode(ExtractToken(header.value), now) == Some(v.identity)
  {
    // A missing header throws a 401 error, which the catch block turns into
    // the same 404 as an undecodable token.
    if !Truthy(header) then Invalid(MissingHeader)
    else
      match decode(ExtractToken(header.value), now)
      case None => Invalid(Undecodable)
      case Some(p) => if p.exp <= now then Expired else Admitted(p)
  }

  datatype GateMessage = TokenExpired | TokenInvalid

  /** Either the handler chain continues with `req.user` set, or the request
      is answered here. */
  datatype GateReply = Next(user: Payload) | Refuse(response: Response<GateMessage>)

  /** `authenticateUser`: the decision as the client sees it. */
  function AuthenticateUser(header: Option<string>, decode: (string, int) -> Option<Payload>, now: int): (r: GateReply)
    ensures r.Next? <==> Authenticate(header, decode, now).Admitted?
    ensures r.Next? ==> r.user == Authenticate(header, decode, now).identity
    ensures Authenticate(header, decode, now).Expired? ==> r == Refuse(Response(401, TokenExpired))
    ensures Authenticate(header, decode, now).Invalid? ==> r == Refuse(Response(404, TokenInvalid))
  {
    match Authenticate(header, decode, now)
    case Admitted(p) => Next(p)
    case Expired => Refuse(Response(401, TokenExpired))
    case Invalid(_) => Refuse(Response(404, TokenInvalid))
  }

  /** A request without the header is answered exactly like one whose token
      cannot be decoded. */
  lemma MissingHeaderLooksLikeBadToken(header: string, decode: (string, int) -> Option<Payload>, now: int)
    requires header != "" && decode(ExtractToken(header), now).None?
    ensures AuthenticateUser(None, decode, now) == AuthenticateUser(Some(header), decode, now)
    ensures AuthenticateUser(Some(""), decode, now) == AuthenticateUser(Some(header), decode, now)
  {
  }

  /** A token is already expired at the second its `exp` names, and valid the
      second before. */
  lemma ExpiryBoundary(header: string, decode: (string, int) -> Option<Payload>, p: Payload)
    requires header != ""
    requires decode(ExtractToken(header), p.exp) == Some(p) && decode(ExtractToken(header), p.exp - 1) == Some(p)
    ensures AuthenticateUser(Some(header), decode, p.exp) == Refuse(Response(401, TokenExpired))
    ensures AuthenticateUser(Some(header), decode, p.exp - 1) == Next(p)
  {
  }

  /** Round trip: the login token of `u` issued at `issued`, sent back as
      `Bearer <token>`, admits the request as `u` for thirty days. */
  lemma IssuedTokenAdmitted(u: User, issued: int, now: int,
                            encode: Payload -> string, decode: (string, int) -> Option<Payload>)
    requires DecodesLive(decode, encode)
    requires Trimmed(CreateToken(u, issued, encode))
    requires now < issued + TokenLifetime
    ensures AuthenticateUser(Some(BearerPrefix + CreateToken(u, issued, encode)), decode, now)
              == Next(TokenPayload(u, issued))
  {
    BearerTokenExtracted(CreateToken(u, issued, encode));
  }

  /** After thirty days the same token is refused: as expired when the
      library still decodes it, as invalid when its own expiry check throws. */
  lemma IssuedTokenExpires(u: User, issued: int, now: int,
                           encode: Payload -> string, decode: (string, int) -> Option<Payload>)
    requires NeverForges(decode, encode)
    requires Trimmed(CreateToken(u, issued, encode))
    requires now >= issued + TokenLifetime
    ensures var token := CreateToken(u, issued, encode);
            var r := AuthenticateUser(Some(BearerPrefix + token), decode, now);
            && (decode(token, now).Some? ==> r == Refuse(Response(401, TokenExpired)))
            && (decode(token, now).None? ==> r == Refuse(Response(404, TokenInvalid)))
  {
    BearerTokenExtracted(CreateToken(u, issued, encode));
  }
}

=== FILE: Messages.dfy ===
/** Direct-message handlers: sending, the received and sent listings, the
    unviewed counter and marking everything received as viewed.

    The message model file defines a plain class without `save`, `find`,
    `countDocuments` or `update`; the handlers are modelled by the document
    store operations they call, as a Mongoose model would perform them.
 */
module Messages {
  import opened Seqs
  import opened Model
  import opened Paging

  /** The string values the `viewed` field takes. */
  const Unviewed: string := "false"
  const Viewed: string := "true"

  // -------------------------------------------------------------------- send

  /** The fields of a send request; absent fields are `None`. */
  datatype MessageBody = MessageBody(text: Option<string>, receiver: Option<Id>)

  datatype SendMessage =
    | MissingData
    | MessageStored(message: Message)

  /** `saveMessage`: both `text` and `receiver` must be truthy, otherwise the
      answer is a 200 asking for the data and nothing is stored. The stored
      message comes from the caller, is stamped `now` and starts unviewed. */
  function SaveMessage(st: Store, caller: Id, body: MessageBody, now: int): (out: Outcome<SendMessage>)
    ensures !Truthy(body.text) || !Truthy(body.receiver) <==> out == Outcome(Response(200, MissingData), st)
    ensures out.response.body.MessageStored? ==>
              var m := out.response.body.message;
              && out.response.status == 200
              && m.emitter == caller && m.receiver == body.receiver.value && m.text == body.text.value
              && m.createdAt == now && m.viewed == Unviewed
              && out.store.messages == st.messages + [m]
    ensures Truthy(body.text) && Truthy(body.receiver) ==> out.response.body.MessageStored?
    ensures out.store.(messages := st.messages) == st
  {
    if !Truthy(body.text) || !Truthy(body.receiver) then Outcome(Response(200, MissingData), st)
    else
      var m := Message(caller, body.receiver.value, body.text.value, now, Unviewed);
      Outcome(Response(200, MessageStored(m)), st.(messages := st.messages + [m]))
  }

  // ---------------------------------------------------------------- listings

  /** The messages `user` received, newest first (`find({receiver})`). */
  function Inbox(msgs: seq<Message>, user: Id): (r: seq<Message>)
    ensures NewestFirst(r, SentAt)
    ensures forall m :: m in r <==> m in msgs && m.receiver == user
    ensures forall m :: multiset(r)[m] == if m.receiver == user then multiset(msgs)[m] else 0
  {
    var p := (m: Message) => m.receiver == user;
    var matches := Filter(msgs, p);
    var r := SortNewestFirst(matches, SentAt);
    assert forall m :: multiset(r)[m] == if m.receiver == user then multiset(msgs)[m] else 0 by {
      forall m ensures multiset(r)[m] == if m.receiver == user then multiset(msgs)[m] else 0 {
        FilterMultiset(msgs, p, m);
      }
    }
    assert forall m :: m in r <==> m in msgs && m.receiver == user by {
      forall m ensures m in r <==> m in msgs && m.receiver == user {
        assert m in r <==> m in multiset(r);
        assert m in msgs <==> m in multiset(msgs);
      }
    }
    r
  }

  /** The messages `user` sent, newest first (`find({emitter})`). */
  function Outbox(msgs: seq<Message>, user: Id): (r: seq<Message>)
    ensures NewestFirst(r, SentAt)
    ensures forall m :: m in r <==> m in msgs && m.emitter == user
    ensures forall m :: multiset(r)[m] == if m.emitter == user then multiset(msgs)[m] else 0
  {
    var p := (m: Message) => m.emitter == user;
    var matches := Filter(msgs, p);
    var r := SortNewestFirst(matches, SentAt);
    assert forall m :: multiset(r)[m] == if m.emitter == user then multiset(msgs)[m] else 0 by {
      forall m ensures multiset(r)[m] == if m.emitter == user then multiset(msgs)[m] else 0 {
        FilterMultiset(msgs, p, m);
      }
    }
    assert forall m :: m in r <==> m in msgs && m.emitter == user by {
      forall m ensures m in r <==> m in msgs && m.emitter == user {
        assert m in r <==> m in multiset(r);
        assert m in msgs <==> m in multiset(msgs);
      }
    }
    r
  }

  /** `getReceivedMessages`: one page of 4 of the caller's received messages,
      newest first. */
  function GetReceivedMessages(st: Store, caller: Id, pageParam: Option<int>): (r: Response<Listing<Message>>)
    ensures r.status == 200
    ensures r.body.pages == PageCount(r.body.total)
    ensures pageParam.None? ==> r.body.page == 1
    ensures NewestFirst(r.body.items, SentAt)
    ensures pageParam.Some? ==> r.body.page == pageParam.value
    ensures r.body.total == |Inbox(st.messages, caller)|
    ensures r.body.items == Page(Inbox(st.messages, caller), r.body.page)
    ensures forall i :: 0 <= i < |r.body.items| ==>
              r.body.items[i] in st.messages && r.body.items[i].receiver == caller
  {
    var all := Inbox(st.messages, caller);
    var l := List(all, pageParam);
    PageIsNewestFirst(all, l.page, SentAt);
    Response(200, l)
  }

  /** `getEmmitMessages`: one page of 4 of the caller's sent messages,
      newest first. */
  function GetEmitMessages(st: Store, caller: Id, pageParam: Option<int>): (r: Response<Listing<Message>>)
    ensures r.status == 200
    ensures r.body.pages == PageCount(r.body.total)
    ensures pageParam.None? ==> r.body.page == 1
    ensures NewestFirst(r.body.items, SentAt)
    ensures pageParam.Some? ==> r.body.page == pageParam.value
    ensures r.body.total == |Outbox(st.messages, caller)|
    ensures r.body.items == Page(Outbox(st.messages, caller), r.body.page)
    ensures forall i :: 0 <= i < |r.body.items| ==>
              r.body.items[i] in st.messages && r.body.items[i].emitter == caller
  {
    var all := Outbox(st.messages, caller);
    var l := List(all, pageParam);
    PageIsNewestFirst(all, l.page, SentAt);
    Response(200, l)
  }

  /** A sent message is listed in the receiver's inbox and the sender's
      outbox, and each list grows by exactly one. */
  lemma SentMessageListed(st: Store, caller: Id, body: MessageBody, now: int)
    requires Truthy(body.text) && Truthy(body.receiver)
    ensures var out := SaveMessage(st, caller, body, now);
            var m := out.response.body.message;
            && m in Inbox(out.store.messages, body.receiver.value)
            && m in Outbox(out.store.messages, caller)
            && |Inbox(out.store.messages, body.receiver.value)| == |Inbox(st.messages, body.receiver.value)| + 1
            && |Outbox(out.store.messages, caller)| == |Outbox(st.messages, caller)| + 1
  {
    var m := SaveMessage(st, caller, body, now).response.body.message;
    InboxGrows(st.messages, m);
    OutboxGrows(st.messages, m);
  }

  /** Appending a message adds exactly that message to its receiver's inbox. */
  lemma InboxGrows(msgs: seq<Message>, m: Message)
    ensures m in Inbox(msgs + [m], m.receiver)
    ensures |Inbox(msgs + [m], m.receiver)| == |Inbox(msgs, m.receiver)| + 1
  {
    var after, u := msgs + [m], m.receiver;
    assert multiset(after) == multiset(msgs) + multiset{m};
    assert multiset(Inbox(after, u)) == multiset(Inbox(msgs, u)) + multiset{m} by {
      forall x ensures multiset(Inbox(after, u))[x] == (multiset(Inbox(msgs, u)) + multiset{m})[x] { }
    }
    assert |multiset(Inbox(after, u))| == |Inbox(after, u)|;
  }

  /** Appending a message adds exactly that message to its emitter's outbox. */
  lemma OutboxGrows(msgs: seq<Message>, m: Message)
    ensures m in Outbox(msgs + [m], m.emitter)
    ensures |Outbox(msgs + [m], m.emitter)| == |Outbox(msgs, m.emitter)| + 1
  {
    var after, u := msgs + [m], m.emitter;
    assert multiset(after) == multiset(msgs) + multiset{m};
    assert multiset(Outbox(after, u)) == multiset(Outbox(msgs, u)) + multiset{m} by {
      forall x ensures multiset(Outbox(after, u))[x] == (multiset(Outbox(msgs, u)) + multiset{m})[x] { }
    }
    assert |multiset(Outbox(after, u))| == |Outbox(after, u)|;
  }

  // -------------------------------------------------------------- unviewed

  /** A message `user` received and has not viewed yet. */
  predicate UnviewedBy(m: Message, user: Id)
  {
    m.receiver == user && m.viewed == Unviewed
  }

  /** `countDocuments({receiver: user, viewed: 'false'})`. */
  function UnviewedCount(msgs: seq<Message>, user: Id): (n: nat)
    ensures n == |set i: nat | i < |msgs| && UnviewedBy(msgs[i], user)|
    decreases |msgs|
  {
    if |msgs| == 0 then
      assert Matching(msgs, (m: Message) => UnviewedBy(m, user)) == {};
      0
    else
      var k := |msgs| - 1;
      var p := (m: Message) => UnviewedBy(m, user);
      assert msgs == msgs[..k] + [msgs[k]];
      MatchingSnoc(msgs[..k], msgs[k], p);
      assert Matching(msgs, p) == set i: nat | i < |msgs| && UnviewedBy(msgs[i], user);
      assert Matching(msgs[..k], p) == set i: nat | i < k && UnviewedBy(msgs[..k][i], user);
      assert k !in Matching(msgs[..k], p);
      UnviewedCount(msgs[..k], user) + if UnviewedBy(msgs[k], user) then 1 else 0
  }

  /** `getUnviewedMessages`: how many messages the caller has not viewed. */
  function GetUnviewedMessages(st: Store, caller: Id): (r: Response<nat>)
    ensures r.status == 200
    ensures r.body == |set i: nat | i < |st.messages| && UnviewedBy(st.messages[i], caller)|
  {
    Response(200, UnviewedCount(st.messages, caller))
  }

  /** Sending a message adds one to the receiver's unviewed count and leaves
      everybody else's as it was. */
  lemma SaveMessageNotifiesReceiver(st: Store, caller: Id, body: MessageBody, now: int, user: Id)
    requires Truthy(body.text) && Truthy(body.receiver)
    ensures UnviewedCount(SaveMessage(st, caller, body, now).store.messages, user)
            == UnviewedCount(st.messages, user) + (if user == body.receiver.value then 1 else 0)
  {
    var after := SaveMessage(st, caller, body, now).store.messages;
    assert after[..|st.messages|] == st.messages;
  }

  // ------------------------------------------------------------ set viewed

  /** `update({receiver: user, viewed: 'false'}, {viewed: 'true'}, {multi: true})`:
      every unviewed message of `user` becomes viewed, nothing else changes. */
  function MarkViewed(msgs: seq<Message>, user: Id): (r: seq<Message>)
    ensures |r| == |msgs|
    ensures forall i :: 0 <= i < |msgs| ==> r[i].viewed == (if UnviewedBy(msgs[i], user) then Viewed else msgs[i].viewed)
    ensures forall i :: 0 <= i < |msgs| ==> r[i].(viewed := msgs[i].viewed) == msgs[i]
    decreases |msgs|
  {
    if |msgs| == 0 then []
    else
      var k := |msgs| - 1;
      var m := msgs[k];
      MarkViewed(msgs[..k], user) + [Mark(m, user)]
  }

  /** The raw update result: how many messages matched the filter. */
  datatype UpdateResult = UpdateResult(matched: nat, modified: nat)

  /** `setViewedMessages`: marks the caller's received messages as viewed and
      answers with the update result, which is always an object, so the 404
      branch is never taken. */
  function SetViewedMessages(st: Store, caller: Id): (out: Outcome<UpdateResult>)
    ensures out.response.status == 200
    ensures out.response.body.matched == out.response.body.modified == UnviewedCount(st.messages, caller)
    ensures out.store.messages == MarkViewed(st.messages, caller)
    ensures out.store.(messages := st.messages) == st
  {
    var n := UnviewedCount(st.messages, caller);
    Outcome(Response(200, UpdateResult(n, n)), st.(messages := MarkViewed(st.messages, caller)))
  }

  /** After marking, nothing the user received is unviewed. */
  lemma {:induction false} MarkViewedClears(msgs: seq<Message>, user: Id)
    ensures UnviewedCount(MarkViewed(msgs, user), user) == 0
    decreases |msgs|
  {
    if |msgs| > 0 {
      var k := |msgs| - 1;
      MarkViewedClears(msgs[..k], user);
      MarkViewedPrefix(msgs, user);
    }
  }

  /** Marking all messages marks, in particular, all but the last. */
  lemma MarkViewedPrefix(msgs: seq<Message>, user: Id)
    requires |msgs| > 0
    ensures MarkViewed(msgs, user)[..|msgs| - 1] == MarkViewed(msgs[..|msgs| - 1], user)
  {
    var k := |msgs| - 1;
    var a := MarkViewed(msgs[..k], user);
    assert MarkViewed(msgs, user) == a + [Mark(msgs[k], user)];
    assert (a + [Mark(msgs[k], user)])[..k] == a;
  }

  /** Marking touches only the marking user's messages: everybody else's
      unviewed count is unchanged. */
  lemma {:induction false} MarkViewedSparesOthers(msgs: seq<Message>, user: Id, other: Id)
    requires other != user
    ensures UnviewedCount(MarkViewed(msgs, user), other) == UnviewedCount(msgs, other)
    decreases |msgs|
  {
    if |msgs| > 0 {
      var k := |msgs| - 1;
      MarkViewedSparesOthers(msgs[..k], user, other);
      MarkViewedPrefix(msgs, user);
    }
  }

  /** Marking twice is marking once. */
  lemma {:induction false} MarkViewedIdempotent(msgs: seq<Message>, user: Id)
    ensures MarkViewed(MarkViewed(msgs, user), user) == MarkViewed(msgs, user)
    decreases |msgs|
  {
    if |msgs| > 0 {
      var k := |msgs| - 1;
      var once := MarkViewed(msgs, user);
      MarkViewedIdempotent(msgs[..k], user);
      MarkViewedPrefix(msgs, user);
      assert MarkViewed(once, user) == MarkViewed(once[..k], user) + [Mark(once[k], user)];
      assert Mark(once[k], user) == once[k];
    }
  }

  /** The filter document `{receiver: reader}`. */
  function ReceivedBy(reader: Id): Message -> bool
  {
    (m: Message) => m.receiver == reader
  }

  /** Marking one message as viewed, if it is an unviewed one of `user`. */
  function Mark(m: Message, user: Id): (r: Message)
    ensures !UnviewedBy(r, user)
    ensures r.(viewed := m.viewed) == m
    ensures r.viewed == if UnviewedBy(m, user) then Viewed else m.viewed
  {
    if UnviewedBy(m, user) then m.(viewed := Viewed) else m
  }

  /** Marking keeps every message and its place: listing what a user
      received after marking is listing it before and then marking. */
  lemma {:induction false} MarkViewedKeepsReceived(msgs: seq<Message>, user: Id, reader: Id)
    ensures Filter(MarkViewed(msgs, user), ReceivedBy(reader))
            == MarkViewed(Filter(msgs, ReceivedBy(reader)), user)
    decreases |msgs|
  {
    if |msgs| > 0 {
      var k := |msgs| - 1;
      var prefix, m := msgs[..k], msgs[k];
      MarkViewedKeepsReceived(prefix, user, reader);
      KeepsReceivedStep(prefix, m, user, reader);
      LastSplit(msgs);
    }
  }

  /** The inductive step of MarkViewedKeepsReceived: one more message. */
  lemma KeepsReceivedStep(msgs: seq<Message>, m: Message, user: Id, reader: Id)
    requires Filter(MarkViewed(msgs, user), ReceivedBy(reader)) == MarkViewed(Filter(msgs, ReceivedBy(reader)), user)
    ensures Filter(MarkViewed(msgs + [m], user), ReceivedBy(reader))
            == MarkViewed(Filter(msgs + [m], ReceivedBy(reader)), user)
  {
    var p := ReceivedBy(reader);
    var mk := Mark(m, user);
    MarkViewedSnoc(msgs, m, user);
    assert p(mk) == p(m);
    FilterSnoc(MarkViewed(msgs, user), mk, p);
    FilterSnoc(msgs, m, p);
    if p(m) {
      MarkViewedSnoc(Filter(msgs, p), m, user);
    }
  }

  /** Marking a sequence extended by one message marks the prefix and that
      message. */
  lemma MarkViewedSnoc(msgs: seq<Message>, m: Message, user: Id)
    ensures MarkViewed(msgs + [m], user) == MarkViewed(msgs, user) + [Mark(m, user)]
  {
    assert (msgs + [m])[..|msgs|] == msgs;
  }

  /** Setting viewed a second time matches nothing and changes nothing, and
      other users' counters never move. */
  lemma SetViewedTwice(st: Store, caller: Id, other: Id)
    ensures var once := SetViewedMessages(st, caller).store;
            && SetViewedMessages(once, caller) == Outcome(Response(200, UpdateResult(0, 0)), once)
            && (other != caller ==> UnviewedCount(once.messages, other) == UnviewedCount(st.messages, other))
  {
    MarkViewedClears(st.messages, caller);
    MarkViewedIdempotent(st.messages, caller);
    if other != caller {
      MarkViewedSparesOthers(st.messages, caller, other);
    }
  }
}

=== FILE: Model.dfy ===
/** The records the handlers read and write, and the abstract store holding
    one collection per record kind in insertion order.
 */
module Model {
  import opened Seqs

  /** A document id (`_id`, `req.user.sub`, a path or body id). */
  type Id = string

  /** A registered account: the fields the `User` constructor sets. */
  datatype User = User(
    id: Id,
    name: string,
    surname: string,
    nickname: string,
    email: string,
    password: string,
    role: string,
    image: Option<string>)

  /** A directed follow edge: `user` follows `followed`. */
  datatype Follow = Follow(user: Id, followed: Id)

  /** A post; `file` is the attached image name once one is uploaded. */
  datatype Publication = Publication(
    id: Id,
    text: string,
    file: Option<string>,
    user: Id,
    createdAt: int)

  /** A direct message; `viewed` holds the strings 'false' or 'true'. */
  datatype Message = Message(
    emitter: Id,
    receiver: Id,
    text: string,
    createdAt: int,
    viewed: string)

  /** The four collections the handlers use. */
  datatype Store = Store(
    users: seq<User>,
    follows: seq<Follow>,
    publications: seq<Publication>,
    messages: seq<Message>)

  /** The HTTP status and the kind of JSON body sent back. */
  datatype Response<B> = Response(status: nat, body: B)

  /** A handler's response together with the store it leaves behind. */
  datatype Outcome<B> = Outcome(response: Response<B>, store: Store)

  /** JavaScript truthiness of an optional string field: present and non-empty. */
  predicate Truthy(field: Option<string>)
  {
    field.Some? && field.value != ""
  }

  /** The sort key of `sort('-created_at')` on publications. */
  function PublishedAt(p: Publication): int
  {
    p.createdAt
  }

  /** The sort key of `sort('-created_at')` on messages. */
  function SentAt(m: Message): int
  {
    m.createdAt
  }
}

=== FILE: Paging.dfy ===
/** Pagination as the listing handlers use it: a fixed page size of 4, the
    page number defaulting to 1, the page slice `skip((page-1)*4).limit(4)`
    and a page count of `Math.ceil(total / 4)`.
 */
module Paging {
  import opened Seqs

  /** `itemsPerPage` / `itemPerPages` in every listing handler. */
  const PageSize: nat := 4

  /** `Math.ceil(total / PageSize)`: the fewest pages that hold `total` items. */
  function PageCount(total: nat): (n: nat)
    ensures n * PageSize >= total
    ensures n > 0 ==> (n - 1) * PageSize < total
  {
    (total + PageSize - 1) / PageSize
  }

  function Min(a: int, b: int): int
  {
    if a <= b then a else b
  }

  /** The items shown on page `page` (numbered from 1). */
  function Page<T(==)>(items: seq<T>, page: int): (r: seq<T>)
    ensures |r| <= PageSize
    ensures page < 1 || page > PageCount(|items|) ==> r == []
    ensures 1 <= page < PageCount(|items|) ==> |r| == PageSize
    ensures 1 <= page <= PageCount(|items|) ==> |r| > 0
    ensures forall i :: 0 <= i < |r| ==> r[i] in items
  {
    var start := (page - 1) * PageSize;
    if page < 1 || start >= |items| then []
    else items[start..Min(start + PageSize, |items|)]
  }

  /** A page of a newest-first list is newest-first. */
  lemma PageIsNewestFirst<T>(items: seq<T>, page: int, key: T -> int)
    requires NewestFirst(items, key)
    ensures NewestFirst(Page(items, page), key)
  {
    var r := Page(items, page);
    if r != [] {
      var start := (page - 1) * PageSize;
      assert r == items[start..Min(start + PageSize, |items|)];
      forall i, j | 0 <= i < j < |r| ensures key(r[i]) >= key(r[j]) {
        assert r[i] == items[start + i] && r[j] == items[start + j];
      }
    }
  }

  /** Pages 1 to `n`, one after the other. */
  function Pages<T(==)>(items: seq<T>, n: nat): seq<T>
  {
    if n == 0 then [] else Pages(items, n - 1) + Page(items, n)
  }

  /** The first `n` pages are the first `n * PageSize` items (or all of them). */
  lemma {:induction false} PagesPrefix<T>(items: seq<T>, n: nat)
    ensures Pages(items, n) == items[..Min(n * PageSize, |items|)]
  {
    if n > 0 {
      PagesPrefix(items, n - 1);
      PageSlice(items, n);
      var lo := Min((n - 1) * PageSize, |items|);
      var hi := Min(n * PageSize, |items|);
      assert items[..hi] == items[..lo] + items[lo..hi];
    }
  }

  /** Page `n` is the slice between the ends of pages `n - 1` and `n`. */
  lemma PageSlice<T>(items: seq<T>, n: nat)
    requires n >= 1
    ensures Min((n - 1) * PageSize, |items|) <= Min(n * PageSize, |items|)
    ensures Page(items, n) == items[Min((n - 1) * PageSize, |items|)..Min(n * PageSize, |items|)]
  {
    var start := (n - 1) * PageSize;
    assert n * PageSize == start + PageSize;
  }

  /** Reading every page in turn lists every item exactly once, in order. */
  lemma PagesCoverAll<T>(items: seq<T>)
    ensures Pages(items, PageCount(|items|)) == items
  {
    PagesPrefix(items, PageCount(|items|));
    assert items[..|items|] == items;
  }

  /** The page requested in the path, or 1 when the segment is absent. */
  function RequestedPage(param: Option<int>): int
  {
    if param.Some? then param.value else 1
  }

  /** A listing response: `total`, `pages`, the page number and its items. */
  datatype Listing<T> = Listing(total: nat, pages: nat, page: int, items: seq<T>)

  /** Paginates the full query result `matches`. */
  function List<T(==)>(matches: seq<T>, pageParam: Option<int>): (l: Listing<T>)
    ensures l.total == |matches|
    ensures l.pages * PageSize >= l.total && (l.pages > 0 ==> (l.pages - 1) * PageSize < l.total)
    ensures pageParam.None? ==> l.page == 1
    ensures pageParam.Some? ==> l.page == pageParam.value
    ensures l.items == Page(matches, l.page)
  {
    var page := RequestedPage(pageParam);
    Listing(|matches|, PageCount(|matches|), page, Page(matches, page))
  }
}

=== FILE: Publications.dfy ===
/** Publication handlers: posting, the feed, per-author listings, lookup,
    deletion by the author, and attaching an uploaded image.
 */
module Publications {
  import opened Seqs
  import opened Text
  import opened Model
  import opened Paging
  import opened Follows

  // -------------------------------------------------------------------- save

  datatype PublicationMessage =
    | TextRequired
    | PublicationStored(publication: Publication)
    | SaveFailed

  /** `savePublication` as written: after the text check, line 32 calls
      `getDatabase()` and reads `userId`, neither of which the controller
      defines or imports; the ReferenceError lands in the catch block, which
      answers 500 without saving. */
  function SavePublicationAsWritten(st: Store, caller: Id, text: Option<string>, newId: Id, now: int)
    : (out: Outcome<PublicationMessage>)
    ensures out.store == st
    ensures !Truthy(text) ==> out.response == Response(200, TextRequired)
    ensures Truthy(text) ==> out.response.status == 500
  {
    if !Truthy(text) then Outcome(Response(200, TextRequired), st)
    else Outcome(Response(500, SaveFailed), st)
  }

  /** As written no publication is ever stored, where the intended handler
      stores one for every non-empty text. */
  lemma SavePublicationAsWrittenNeverStores(st: Store, caller: Id, text: Option<string>, newId: Id, now: int)
    requires Truthy(text)
    ensures |SavePublicationAsWritten(st, caller, text, newId, now).store.publications| == |st.publications|
    ensures |SavePublication(st, caller, text, newId, now).store.publications| == |st.publications| + 1
  {
  }

  /** `savePublication` as intended: a missing or empty text is refused; any
      other text is stored by the caller, with no file, stamped `now`. */
  function SavePublication(st: Store, caller: Id, text: Option<string>, newId: Id, now: int)
    : (out: Outcome<PublicationMessage>)
    ensures !Truthy(text) ==> out == Outcome(Response(200, TextRequired), st)
    ensures Truthy(text) ==>
              && |out.store.publications| == |st.publications| + 1
              && out.store.publications[..|st.publications|] == st.publications
              && var p := out.store.publications[|st.publications|];
                 && p.id == newId && p.text == text.value && p.file == None
                 && p.user == caller && p.createdAt == now
                 && out.response == Response(200, PublicationStored(p))
    ensures out.store.(publications := st.publications) == st
  {
    if !Truthy(text) then Outcome(Response(200, TextRequired), st)
    else
      var p := Publication(newId, text.value, None, caller, now);
      Outcome(Response(200, PublicationStored(p)), st.(publications := st.publications + [p]))
  }

  // -------------------------------------------------------------------- feed

  /** The feed scope: the ids the caller follows, then the caller. */
  function FeedScope(fs: seq<Follow>, caller: Id): (scope: seq<Id>)
    ensures scope == FollowingOf(fs, caller) + [caller]
    ensures forall x :: x in scope <==> x == caller || Follow(caller, x) in fs
  {
    ProjectOutEdges(fs, caller);
    var scope := Map(OutEdges(fs, caller), FollowedId) + [caller];
    assert forall x :: x in scope <==> x == caller || Follow(caller, x) in fs by {
      forall x ensures x in scope <==> x == caller || Follow(caller, x) in fs {
        FollowingCounts(fs, caller, x);
      }
    }
    scope
  }

  /** The caller can see `p` in the feed. */
  predicate Visible(fs: seq<Follow>, caller: Id, p: Publication)
  {
    p.user == caller || Follow(caller, p.user) in fs
  }

  /** All publications by someone in the feed scope, newest first. */
  function FeedMatches(st: Store, caller: Id): (r: seq<Publication>)
    ensures NewestFirst(r, PublishedAt)
    ensures forall p :: p in r <==> p in st.publications && Visible(st.follows, caller, p)
    ensures forall p :: multiset(r)[p] == if Visible(st.follows, caller, p) then multiset(st.publications)[p] else 0
  {
    var scope := FeedScope(st.follows, caller);
    var inScope := (p: Publication) => p.user in scope;
    var r := SortNewestFirst(Filter(st.publications, inScope), PublishedAt);
    assert forall p :: multiset(r)[p] == if Visible(st.follows, caller, p) then multiset(st.publications)[p] else 0 by {
      forall p ensures multiset(r)[p] == if Visible(st.follows, caller, p) then multiset(st.publications)[p] else 0 {
        FilterMultiset(st.publications, inScope, p);
      }
    }
    r
  }

  /** `getPublications`: one page of 4 of the caller's feed. */
  function GetPublications(st: Store, caller: Id, pageParam: Option<int>): (r: Response<Listing<Publication>>)
    ensures r.status == 200
    ensures r.body.total == |FeedMatches(st, caller)|
    ensures r.body.pages == PageCount(r.body.total)
    ensures pageParam.None? ==> r.body.page == 1
    ensures pageParam.Some? ==> r.body.page == pageParam.value
    ensures r.body.items == Page(FeedMatches(st, caller), r.body.page)
    ensures NewestFirst(r.body.items, PublishedAt)
    ensures forall i :: 0 <= i < |r.body.items| ==>
              r.body.items[i] in st.publications && Visible(st.follows, caller, r.body.items[i])
  {
    var all := FeedMatches(st, caller);
    var l := List(all, pageParam);
    PageIsNewestFirst(all, l.page, PublishedAt);
    Response(200, l)
  }

  /** If `a` follows `b` and not the other way round, `a` sees both their
      posts and `b` sees only its own. */
  lemma FeedScenario(st: Store, a: Id, b: Id, pa: Publication, pb: Publication)
    requires a != b
    requires Follow(a, b) in st.follows && Follow(b, a) !in st.follows
    requires pa in st.publications && pa.user == a
    requires pb in st.publications && pb.user == b
    ensures pa in FeedMatches(st, a) && pb in FeedMatches(st, a)
    ensures pb in FeedMatches(st, b) && pa !in FeedMatches(st, b)
  {
  }

  /** The publications of `author`, newest first. */
  function AuthorMatches(pubs: seq<Publication>, author: Id): (r: seq<Publication>)
    ensures NewestFirst(r, PublishedAt)
    ensures forall p :: p in r <==> p in pubs && p.user == author
    ensures forall p :: multiset(r)[p] == if p.user == author then multiset(pubs)[p] else 0
  {
    var byAuthor := (p: Publication) => p.user == author;
    var matches := Filter(pubs, byAuthor);
    var r := SortNewestFirst(matches, PublishedAt);
    assert forall p :: p in r <==> p in matches by {
      forall p ensures p in r <==> p in matches {
        assert p in r <==> p in multiset(r);
      }
    }
    assert forall p :: multiset(r)[p] == if p.user == author then multiset(pubs)[p] else 0 by {
      forall p ensures multiset(r)[p] == if p.user == author then multiset(pubs)[p] else 0 {
        FilterMultiset(pubs, byAuthor, p);
      }
    }
    r
  }

  /** `getPublicationsUser`: one page of 4 of one author's publications; the
      author is the caller unless the path names one. */
  function GetPublicationsUser(st: Store, caller: Id, userParam: Option<Id>, pageParam: Option<int>)
    : (r: Response<Listing<Publication>>)
    ensures r.status == 200
    ensures r.body.pages == PageCount(r.body.total)
    ensures pageParam.None? ==> r.body.page == 1
    ensures NewestFirst(r.body.items, PublishedAt)
    ensures pageParam.Some? ==> r.body.page == pageParam.value
    ensures var author := if Truthy(userParam) then userParam.value else caller;
            && r.body.total == |AuthorMatches(st.publications, author)|
            && r.body.items == Page(AuthorMatches(st.publications, author), r.body.page)
            && forall i :: 0 <= i < |r.body.items| ==>
                 r.body.items[i] in st.publications && r.body.items[i].user == author
  {
    var author := if Truthy(userParam) then userParam.value else caller;
    var all := AuthorMatches(st.publications, author);
    var l := List(all, pageParam);
    PageIsNewestFirst(all, l.page, PublishedAt);
    Response(200, l)
  }

  datatype PublicationView = PublicationFound(publication: Publication) | PublicationMissing

  /** `getPublication`: the publication with this id, or 404. */
  function GetPublication(st: Store, id: Id): (r: Response<PublicationView>)
    ensures r.status == 200 <==> exists i :: 0 <= i < |st.publications| && st.publications[i].id == id
    ensures r.status == 200 ==> r.body.PublicationFound? && r.body.publication in st.publications
                                && r.body.publication.id == id
    ensures r.status != 200 ==> r == Response(404, PublicationMissing)
  {
    match First(st.publications, (p: Publication) => p.id == id)
    case None => Response(404, PublicationMissing)
    case Some(p) => Response(200, PublicationFound(p))
  }

  // ------------------------------------------------------------------ delete

  /** `p` is the caller's publication with this id. */
  predicate OwnedMatch(p: Publication, caller: Id, id: Id)
  {
    p.user == caller && p.id == id
  }

  datatype DeleteMessage = PublicationDeleted | NotDeleted

  /** `deletePublication`: removes every publication of the caller with this
      id and reports success iff exactly one was removed. */
  function DeletePublication(st: Store, caller: Id, id: Id): (out: Outcome<DeleteMessage>)
    ensures out.response.status == 200 <==>
              |set i: nat | i < |st.publications| && OwnedMatch(st.publications[i], caller, id)| == 1
    ensures out.response.status != 200 ==> out.response == Response(404, NotDeleted)
    ensures forall p :: p in out.store.publications <==> p in st.publications && !OwnedMatch(p, caller, id)
    ensures forall p :: !OwnedMatch(p, caller, id) ==>
              multiset(out.store.publications)[p] == multiset(st.publications)[p]
    ensures out.store.(publications := st.publications) == st
  {
    var owned := (p: Publication) => OwnedMatch(p, caller, id);
    var kept := (p: Publication) => !OwnedMatch(p, caller, id);
    FilterLength(st.publications, owned);
    assert Matching(st.publications, owned)
        == set i: nat | i < |st.publications| && OwnedMatch(st.publications[i], caller, id);
    var remaining := Filter(st.publications, kept);
    assert forall p :: !OwnedMatch(p, caller, id) ==>
             multiset(remaining)[p] == multiset(st.publications)[p] by {
      forall p | !OwnedMatch(p, caller, id) ensures multiset(remaining)[p] == multiset(st.publications)[p] {
        FilterMultiset(st.publications, kept, p);
      }
    }
    var removed := |Filter(st.publications, owned)|;
    var response := if removed == 1 then Response(200, PublicationDeleted) else Response(404, NotDeleted);
    Outcome(response, st.(publications := remaining))
  }

  /** Deleting again finds nothing: 404, and the store stays as it is. */
  lemma DeletePublicationTwice(st: Store, caller: Id, id: Id)
    ensures var once := DeletePublication(st, caller, id).store;
            DeletePublication(once, caller, id) == Outcome(Response(404, NotDeleted), once)
  {
    var once := DeletePublication(st, caller, id).store;
    var none := set i: nat | i < |once.publications| && OwnedMatch(once.publications[i], caller, id);
    assert none == {} by {
      forall i: nat | i < |once.publications| ensures !OwnedMatch(once.publications[i], caller, id) {
        assert once.publications[i] in once.publications;
      }
    }
    var twice := DeletePublication(once, caller, id).store;
    assert twice.publications == once.publications by {
      var kept := (p: Publication) => !OwnedMatch(p, caller, id);
      FilterAllKept(once.publications, kept);
    }
  }

  /** Filtering by a predicate every element satisfies changes nothing. */
  lemma {:induction false} FilterAllKept<T>(s: seq<T>, p: T -> bool)
    requires forall i :: 0 <= i < |s| ==> p(s[i])
    ensures Filter(s, p) == s
    decreases |s|
  {
    if |s| > 0 {
      var n := |s| - 1;
      FilterAllKept(s[..n], p);
      assert s == s[..n] + [s[n]];
    }
  }

  // ------------------------------------------------------------------ upload

  /** `file_path.split('\\')[2]`: the uploaded file's name, absent when the
      path has fewer than three backslash-separated segments. */
  function UploadedName(path: string): (r: Option<string>)
    ensures r.Some? <==> multiset(path)['\\'] >= 2
    ensures r.Some? ==> '\\' !in r.value
    ensures r.Some? ==> |Split(path, '\\')| >= 3 && r.value == Split(path, '\\')[2]
  {
    SplitCount(path, '\\');
    var segments := Split(path, '\\');
    if |segments| < 3 then None else Some(segments[2])
  }

  /** `file_name.split('.')[1]`: the second dot-separated segment, absent
      when the name has no dot. */
  function ExtensionOf(fileName: string): (r: Option<string>)
    ensures r.Some? <==> '.' in fileName
    ensures r.Some? ==> '.' !in r.value
    ensures r.Some? ==> |Split(fileName, '.')| >= 2 && r.value == Split(fileName, '.')[1]
  {
    SplitCount(fileName, '.');
    var parts := Split(fileName, '.');
    if |parts| < 2 then None else Some(parts[1])
  }

  /** The extension of the uploaded file, absent when the path has no name
      segment or the name no dot. */
  function UploadExtension(path: string): (r: Option<string>)
    ensures r.Some? ==> UploadedName(path).Some? && r == ExtensionOf(UploadedName(path).value)
    ensures UploadedName(path).Some? ==> r == ExtensionOf(UploadedName(path).value)
  {
    match UploadedName(path)
    case None => None
    case Some(name) => ExtensionOf(name)
  }

  /** The whitelist, with the source's `jepg` where `jpeg` was meant. */
  predicate ExtensionAllowed(ext: Option<string>)
  {
    ext.Some? && ext.value in {"png", "jpg", "jepg", "gif"}
  }

  /** What the multipart middleware leaves in `req.files`: nothing (a request
      that is not multipart), a files object without an `image` entry, or
      the stored path of `image`. */
  datatype Upload = NoFiles | NoImage | Image(path: string)

  datatype UploadMessage =
    | UploadCrashed
    | ExtensionInvalid
    | NoPermission
    | UpdateFailed
    | ImageAttached(publication: Publication)

  /** Sets `file` on the publication with id `id` (`findByIdAndUpdate`). */
  function AttachFile(pubs: seq<Publication>, id: Id, fileName: string): (r: seq<Publication>)
    ensures |r| == |pubs|
    ensures forall i :: 0 <= i < |pubs| ==>
              r[i] == if pubs[i].id == id then pubs[i].(file := Some(fileName)) else pubs[i]
  {
    Map(pubs, (p: Publication) => if p.id == id then p.(file := Some(fileName)) else p)
  }

  /** The updated publication with this id, if there is one. */
  function Updated(pubs: seq<Publication>, id: Id, fileName: string): (r: Option<Publication>)
    ensures r.None? <==> forall i :: 0 <= i < |pubs| ==> pubs[i].id != id
    ensures r.Some? ==> exists i :: 0 <= i < |pubs| && pubs[i].id == id
                                    && r.value == pubs[i].(file := Some(fileName))
  {
    match First(pubs, (p: Publication) => p.id == id)
    case None => None
    case Some(p) => Some(p.(file := Some(fileName)))
  }

  /** The caller has a publication with this id. */
  predicate Owns(pubs: seq<Publication>, caller: Id, id: Id)
  {
    exists i :: 0 <= i < |pubs| && OwnedMatch(pubs[i], caller, id)
  }

  /** `uploadImage` as written. Without `req.files` the request is left
      unanswered (`None`). Reading the path of a missing `image`, or the name
      of a path with fewer than three segments, throws a TypeError that the
      application's error handler answers with 500. A bad extension removes
      the upload. The ownership check tests the array `find` returns, which
      is truthy even when empty, so it never refuses. */
  function UploadImageAsWritten(st: Store, caller: Id, pubId: Id, upload: Upload)
    : (out: Option<Outcome<UploadMessage>>)
    ensures upload.NoFiles? <==> out.None?
    ensures upload.NoImage? ==> out == Some(Outcome(Response(500, UploadCrashed), st))
    ensures upload.Image? && UploadedName(upload.path).None? ==>
              out == Some(Outcome(Response(500, UploadCrashed), st))
    ensures upload.Image? && UploadedName(upload.path).Some? && !ExtensionAllowed(UploadExtension(upload.path)) ==>
              out == Some(Outcome(Response(200, ExtensionInvalid), st))
    ensures upload.Image? && ExtensionAllowed(UploadExtension(upload.path)) ==>
              var name := UploadedName(upload.path).value;
              && ((forall i :: 0 <= i < |st.publications| ==> st.publications[i].id != pubId) ==>
                    out == Some(Outcome(Response(404, UpdateFailed), st)))
              && ((exists i :: 0 <= i < |st.publications| && st.publications[i].id == pubId) ==>
                    && out.value.response.status == 200
                    && out.value.response.body.ImageAttached?
                    && out.value.response.body.publication.id == pubId
                    && out.value.response.body.publication.file == Some(name)
                    && out.value.store == st.(publications := AttachFile(st.publications, pubId, name))
                    && exists i :: 0 <= i < |st.publications| && st.publications[i].id == pubId
                         && out.value.response.body.publication == st.publications[i].(file := Some(name))
                         && out.value.store.publications[i] == out.value.response.body.publication)
  {
    match upload
    case NoFiles => None
    case NoImage => Some(Outcome(Response(500, UploadCrashed), st))
    case Image(path) =>
      match UploadedName(path)
      case None => Some(Outcome(Response(500, UploadCrashed), st))
      case Some(name) =>
        if !ExtensionAllowed(ExtensionOf(name)) then Some(Outcome(Response(200, ExtensionInvalid), st))
        else
          match Updated(st.publications, pubId, name)
          case None => Some(Outcome(Response(404, UpdateFailed), st))
          case Some(p) =>
            Some(Outcome(Response(200, ImageAttached(p)),
                         st.(publications := AttachFile(st.publications, pubId, name))))
  }

  /** `uploadImage` with the ownership check made effective: only a
      publication of the caller with this id may receive the file. */
  function UploadImage(st: Store, caller: Id, pubId: Id, upload: Upload)
    : (out: Option<Outcome<UploadMessage>>)
    ensures upload.NoFiles? <==> out.None?
    ensures upload.NoImage? ==> out == Some(Outcome(Response(500, UploadCrashed), st))
    ensures upload.Image? && UploadedName(upload.path).None? ==>
              out == Some(Outcome(Response(500, UploadCrashed), st))
    ensures upload.Image? && UploadedName(upload.path).Some? && !ExtensionAllowed(UploadExtension(upload.path)) ==>
              out == Some(Outcome(Response(200, ExtensionInvalid), st))
    ensures upload.Image? && ExtensionAllowed(UploadExtension(upload.path)) ==>
              var name := UploadedName(upload.path).value;
              && (!Owns(st.publications, caller, pubId) ==>
                    out == Some(Outcome(Response(200, NoPermission), st)))
              && (Owns(st.publications, caller, pubId) ==>
                    && out.value.response.status == 200
                    && out.value.response.body.ImageAttached?
                    && out.value.response.body.publication.id == pubId
                    && out.value.response.body.publication.file == Some(name)
                    && out.value.store == st.(publications := AttachFile(st.publications, pubId, name))
                    && exists i :: 0 <= i < |st.publications| && st.publications[i].id == pubId
                         && out.value.response.body.publication == st.publications[i].(file := Some(name))
                         && out.value.store.publications[i] == out.value.response.body.publication)
    ensures out.Some? && out.value.response.body.ImageAttached? ==>
              upload.Image? && ExtensionAllowed(UploadExtension(upload.path))
              && Owns(st.publications, caller, pubId)
  {
    match upload
    case NoFiles => None
    case NoImage => Some(Outcome(Response(500, UploadCrashed), st))
    case Image(path) =>
      match UploadedName(path)
      case None => Some(Outcome(Response(500, UploadCrashed), st))
      case Some(name) =>
        if !ExtensionAllowed(ExtensionOf(name)) then Some(Outcome(Response(200, ExtensionInvalid), st))
        else if !Owns(st.publications, caller, pubId) then Some(Outcome(Response(200, NoPermission), st))
        else
          // The owned publication exists, so the update finds it and the
          // source's 404 branch is not reached.
          var p := Updated(st.publications, pubId, name).value;
          Some(Outcome(Response(200, ImageAttached(p)),
                       st.(publications := AttachFile(st.publications, pubId, name))))
  }

  /** With unique publication ids, an upload never changes another user's
      publication. */
  lemma UploadSparesOthers(st: Store, caller: Id, pubId: Id, upload: Upload, i: int)
    requires forall j, k :: 0 <= j < k < |st.publications| ==> st.publications[j].id != st.publications[k].id
    requires upload != NoFiles
    requires 0 <= i < |st.publications| && st.publications[i].user != caller
    ensures UploadImage(st, caller, pubId, upload).value.store.publications[i] == st.publications[i]
  {
    var out := UploadImage(st, caller, pubId, upload).value;
    if out.response.body.ImageAttached? {
      var k :| 0 <= k < |st.publications| && OwnedMatch(st.publications[k], caller, pubId);
      assert st.publications[i].id != pubId;
    }
  }
  /** A Windows-style upload path `d1\d2\stem.ext` yields the name `stem.ext`
      and the extension `ext`. */
  lemma UploadedExtension(d1: string, d2: string, stem: string, ext: string)
    requires '\\' !in d1 && '\\' !in d2 && '\\' !in stem && '\\' !in ext
    requires '.' !in stem && '.' !in ext
    ensures UploadedName(d1 + "\\" + d2 + "\\" + stem + "." + ext) == Some(stem + "." + ext)
    ensures ExtensionOf(stem + "." + ext) == Some(ext)
  {
    var name := stem + "." + ext;
    assert '\\' !in name by {
      assert forall c :: c in name ==> c in stem || c == '.' || c in ext;
    }
    assert [d1, d2, name][1..] == [d2, name] && [d2, name][1..] == [name];
    assert Join([name], '\\') == name;
    assert Join([d2, name], '\\') == d2 + "\\" + name;
    assert Join([d1, d2, name], '\\') == d1 + "\\" + (d2 + "\\" + name);
    assert d1 + "\\" + (d2 + "\\" + name) == d1 + "\\" + d2 + "\\" + stem + "." + ext;
    assert [stem, ext][1..] == [ext];
    assert Join([ext], '.') == ext;
    SplitJoin([d1, d2, name], '\\');
    assert Join([stem, ext], '.') == name;
    SplitJoin([stem, ext], '.');
  }

  /** The name of the upload `d1\d2\name` is `name`, dots and all. */
  lemma UploadedNameOf(d1: string, d2: string, name: string)
    requires '\\' !in d1 && '\\' !in d2 && '\\' !in name
    ensures UploadedName(d1 + "\\" + d2 + "\\" + name) == Some(name)
  {
    assert [d1, d2, name][1..] == [d2, name] && [d2, name][1..] == [name];
    assert Join([name], '\\') == name;
    assert Join([d2, name], '\\') == d2 + "\\" + name;
    assert Join([d1, d2, name], '\\') == d1 + "\\" + (d2 + "\\" + name);
    assert d1 + "\\" + (d2 + "\\" + name) == d1 + "\\" + d2 + "\\" + name;
    SplitJoin([d1, d2, name], '\\');
  }

  /** Only the piece after the first dot counts: `stem.ext.rest` has the
      extension `ext`, whatever `rest` holds. */
  lemma ExtensionAfterFirstDot(stem: string, ext: string, rest: string)
    requires '.' !in stem && '.' !in ext
    ensures ExtensionOf(stem + "." + ext + "." + rest) == Some(ext)
  {
    var name := stem + "." + ext + "." + rest;
    assert name == stem + ['.'] + (ext + ['.'] + rest);
    SplitHead(stem, '.', ext + ['.'] + rest);
    SplitHead(ext, '.', rest);
  }

  /** A name with two extensions is judged by the first: `a.b.png` is
      refused because `b` is not on the whitelist. */
  lemma DoubleExtensionRefused(st: Store, caller: Id, pubId: Id, d1: string, d2: string,
                               stem: string, ext: string, rest: string)
    requires '\\' !in d1 && '\\' !in d2 && '\\' !in stem && '\\' !in ext && '\\' !in rest
    requires '.' !in stem && '.' !in ext
    requires ext !in {"png", "jpg", "jepg", "gif"}
    ensures UploadImage(st, caller, pubId, Image(d1 + "\\" + d2 + "\\" + (stem + "." + ext + "." + rest))).value
              == Outcome(Response(200, ExtensionInvalid), st)
  {
    var name := stem + "." + ext + "." + rest;
    assert '\\' !in name by {
      assert forall c :: c in name ==> c in stem || c == '.' || c in ext || c in rest;
    }
    UploadedNameOf(d1, d2, name);
    ExtensionAfterFirstDot(stem, ext, rest);
  }

  /** A `.jpeg` upload is refused, because the whitelist says `jepg`, while a
      `.jepg` upload passes the extension check. */
  lemma JpegRejected(st: Store, caller: Id, pubId: Id, d1: string, d2: string, stem: string)
    requires '\\' !in d1 && '\\' !in d2 && '\\' !in stem && '.' !in stem
    ensures UploadImage(st, caller, pubId, Image(d1 + "\\" + d2 + "\\" + stem + "." + "jpeg")).value
              == Outcome(Response(200, ExtensionInvalid), st)
    ensures ExtensionAllowed(UploadExtension(d1 + "\\" + d2 + "\\" + stem + "." + "jepg"))
  {
    var jpeg := d1 + "\\" + d2 + "\\" + stem + "." + "jpeg";
    UploadExtensionOf(d1, d2, stem, "jpeg");
    UploadExtensionOf(d1, d2, stem, "jepg");
    JpegNotWhitelisted();
    assert UploadedName(jpeg).Some? && !ExtensionAllowed(UploadExtension(jpeg));
  }

  /** The upload `d1\d2\stem.ext` has the extension `ext`. */
  lemma UploadExtensionOf(d1: string, d2: string, stem: string, ext: string)
    requires '\\' !in d1 && '\\' !in d2 && '\\' !in stem && '.' !in stem
    requires '\\' !in ext && '.' !in ext
    ensures UploadedName(d1 + "\\" + d2 + "\\" + stem + "." + ext).Some?
    ensures UploadExtension(d1 + "\\" + d2 + "\\" + stem + "." + ext) == Some(ext)
  {
    UploadedExtension(d1, d2, stem, ext);
  }

  /** The whitelist holds the misspelling `jepg` and not `jpeg`. */
  lemma JpegNotWhitelisted()
    ensures !ExtensionAllowed(Some("jpeg")) && ExtensionAllowed(Some("jepg"))
  {
    assert "jpeg"[1] != "png"[1] && "jpeg"[2] != "jpg"[2] && "jpeg"[1] != "jepg"[1] && "jpeg"[0] != "gif"[0];
  }

  /** As written, anyone can attach an image to someone else's publication;
      the corrected handler refuses and changes nothing. */
  lemma UploadAsWrittenIgnoresOwner(owner: Id, caller: Id, pubId: Id, d1: string, d2: string, stem: string)
    requires owner != caller
    requires '\\' !in d1 && '\\' !in d2 && '\\' !in stem && '.' !in stem
    ensures var st := Store([], [], [Publication(pubId, "hola", None, owner, 0)], []);
            var path := Image(d1 + "\\" + d2 + "\\" + stem + "." + "png");
            && UploadImageAsWritten(st, caller, pubId, path).value.store.publications[0].file
                 == Some(stem + "." + "png")
            && UploadImage(st, caller, pubId, path).value == Outcome(Response(200, NoPermission), st)
  {
    UploadedExtension(d1, d2, stem, "png");
    var st := Store([], [], [Publication(pubId, "hola", None, owner, 0)], []);
    assert !OwnedMatch(st.publications[0], caller, pubId);
  }
}

=== FILE: Seqs.dfy ===
/** Order-preserving sequence helpers shared by every handler.

    A document-store query with a filter document is modelled as a filter over
    the collection in insertion order; `sort('-created_at')` as a newest-first
    sort; `findOne` as the first match; `findOneAndDelete` as removal of the
    first occurrence.
 */
module Seqs {

  /** A value that may be absent (`undefined`/`null` in the source). */
  datatype Option<+T> = None | Some(value: T)

  /** The elements of `s` that satisfy `p`, in their original order. */
  function Filter<T(==)>(s: seq<T>, p: T -> bool): (r: seq<T>)
    ensures |r| <= |s|
    ensures forall i :: 0 <= i < |r| ==> r[i] in s && p(r[i])
    ensures forall i :: 0 <= i < |s| && p(s[i]) ==> s[i] in r
    decreases |s|
  {
    if |s| == 0 then []
    else
      var n := |s| - 1;
      assert s == s[..n] + [s[n]];
      Filter(s[..n], p) + (if p(s[n]) then [s[n]] else [])
  }

  /** A non-empty sequence is its prefix followed by its last element. */
  lemma LastSplit<T>(s: seq<T>)
    requires |s| > 0
    ensures s[..|s| - 1] + [s[|s| - 1]] == s
  {
  }

  /** Filtering a sequence extended by one element filters the prefix and
      keeps the element iff it matches. */
  lemma FilterSnoc<T>(s: seq<T>, x: T, p: T -> bool)
    ensures Filter(s + [x], p) == Filter(s, p) + (if p(x) then [x] else [])
  {
    assert (s + [x])[..|s|] == s;
  }

  /** The indices of `s` whose element satisfies `p`. */
  function Matching<T>(s: seq<T>, p: T -> bool): set<nat>
  {
    set i: nat | i < |s| && p(s[i])
  }

  /** Extending `s` by one element adds its index iff that element matches. */
  lemma MatchingSnoc<T>(s: seq<T>, x: T, p: T -> bool)
    ensures Matching(s + [x], p) == Matching(s, p) + (if p(x) then {|s|} else {})
  {
    var t := s + [x];
    forall i: nat | i < |s| ensures t[i] == s[i] { }
  }

  /** Filtering keeps exactly one element per index that satisfies `p`. */
  lemma {:induction false} FilterLength<T>(s: seq<T>, p: T -> bool)
    ensures |Filter(s, p)| == |Matching(s, p)|
    decreases |s|
  {
    if |s| == 0 {
      assert Matching(s, p) == {};
    } else {
      var n := |s| - 1;
      assert s == s[..n] + [s[n]];
      FilterLength(s[..n], p);
      MatchingSnoc(s[..n], s[n], p);
      assert n !in Matching(s[..n], p);
    }
  }

  /** Filtering keeps every copy of a kept value and no copy of a dropped one. */
  lemma {:induction false} FilterMultiset<T>(s: seq<T>, p: T -> bool, x: T)
    ensures multiset(Filter(s, p))[x] == if p(x) then multiset(s)[x] else 0
    decreases |s|
  {
    if |s| > 0 {
      var n := |s| - 1;
      assert s == s[..n] + [s[n]];
      assert multiset(s) == multiset(s[..n]) + multiset{s[n]};
      FilterMultiset(s[..n], p, x);
    }
  }

  /** `f` applied to every element of `s`, in order. */
  function Map<T, U>(s: seq<T>, f: T -> U): (r: seq<U>)
    ensures |r| == |s|
    ensures forall i :: 0 <= i < |s| ==> r[i] == f(s[i])
    decreases |s|
  {
    if |s| == 0 then [] else Map(s[..|s| - 1], f) + [f(s[|s| - 1])]
  }

  /** Builds `Map(s, f)` by pushing `f` of each element onto a fresh list,
      the way the source projects query results. */
  method PushEach<T, U>(s: seq<T>, f: T -> U) returns (r: seq<U>)
    ensures r == Map(s, f)
  {
    r := [];
    var i := 0;
    while i < |s|
      invariant 0 <= i <= |s|
      invariant r == Map(s[..i], f)
    {
      assert s[..i + 1][..i] == s[..i];
      r := r + [f(s[i])];
      i := i + 1;
    }
    assert s[..i] == s;
  }

  /** The first element of `s` satisfying `p`, if any. */
  function First<T(==)>(s: seq<T>, p: T -> bool): (r: Option<T>)
    ensures r.None? <==> forall i :: 0 <= i < |s| ==> !p(s[i])
    ensures r.Some? ==> exists i :: 0 <= i < |s| && s[i] == r.value && p(s[i])
                          && forall j :: 0 <= j < i ==> !p(s[j])
    decreases |s|
  {
    if |s| == 0 then None
    else if p(s[0]) then Some(s[0])
    else
      var r := First(s[1..], p);
      assert s == [s[0]] + s[1..];
      if r.Some? then
        var i :| 0 <= i < |s[1..]| && s[1..][i] == r.value && p(s[1..][i])
                 && forall j :: 0 <= j < i ==> !p(s[1..][j]);
        assert s[i + 1] == r.value;
        assert forall j :: 0 <= j < i + 1 ==> !p(s[j]) by {
          forall j | 0 <= j < i + 1 ensures !p(s[j]) {
            if j > 0 { assert s[j] == s[1..][j - 1]; }
          }
        }
        r
      else r
  }

  /** `s` without the first occurrence of `x`; `s` itself when `x` is absent. */
  function RemoveFirst<T(==)>(s: seq<T>, x: T): (r: seq<T>)
    ensures multiset(r) == multiset(s) - multiset{x}
    ensures x !in s ==> r == s
    decreases |s|
  {
    if |s| == 0 then []
    else if s[0] == x then
      assert s == [x] + s[1..];
      s[1..]
    else
      assert s == [s[0]] + s[1..];
      [s[0]] + RemoveFirst(s[1..], x)
  }

  lemma ConcatAssoc<T>(a: seq<T>, b: seq<T>, c: seq<T>)
    ensures a + (b + c) == (a + b) + c
  {
  }

  /** Slices of the tail of `s`, seen as slices of `s` itself. */
  lemma TailSlices<T>(s: seq<T>, j: nat)
    requires j + 1 < |s|
    ensures [s[0]] + s[1..][..j] == s[..j + 1]
    ensures s[1..][j + 1..] == s[j + 2..]
  {
  }

  /** The position of the first occurrence of `x` in `s`. */
  function FirstIndex<T(==)>(s: seq<T>, x: T): (i: nat)
    requires x in s
    ensures i < |s| && s[i] == x && x !in s[..i]
  {
    if s[0] == x then 0
    else
      assert x in s[1..];
      var j := FirstIndex(s[1..], x);
      assert s[..j + 1] == [s[0]] + s[1..][..j];
      j + 1
  }

  /** RemoveFirst cuts out exactly the first occurrence and keeps the order
      of everything else. */
  lemma {:induction false} RemoveFirstAt<T>(s: seq<T>, x: T)
    requires x in s
    ensures var i := FirstIndex(s, x); RemoveFirst(s, x) == s[..i] + s[i + 1..]
  {
    if s[0] != x {
      assert x in s[1..];
      RemoveFirstAt(s[1..], x);
      var t := s[1..];
      var j := FirstIndex(t, x);
      assert FirstIndex(s, x) == j + 1;
      calc {
        RemoveFirst(s, x);
        [s[0]] + RemoveFirst(t, x);
        [s[0]] + (t[..j] + t[j + 1..]);
        { ConcatAssoc([s[0]], t[..j], t[j + 1..]); }
        ([s[0]] + t[..j]) + t[j + 1..];
        { TailSlices(s, j); }
        s[..j + 1] + s[j + 2..];
      }
    }
  }

  /** Removing an element that was only just appended gives back the original. */
  lemma RemoveFirstAppended<T>(s: seq<T>, x: T)
    requires x !in s
    ensures RemoveFirst(s + [x], x) == s
  {
    var t := s + [x];
    assert t[|s|] == x && t[..|s|] == s;
    var i := FirstIndex(t, x);
    assert i == |s|;
    RemoveFirstAt(t, x);
    assert t[i + 1..] == [];
  }

  /** `s` lists its elements from the largest key to the smallest. */
  predicate NewestFirst<T(==)>(s: seq<T>, key: T -> int)
  {
    forall i, j :: 0 <= i < j < |s| ==> key(s[i]) >= key(s[j])
  }

  /** Inserts `x` into a newest-first sequence, keeping it newest-first. */
  function Insert<T(==)>(x: T, s: seq<T>, key: T -> int): (r: seq<T>)
    requires NewestFirst(s, key)
    ensures NewestFirst(r, key)
    ensures multiset(r) == multiset(s) + multiset{x}
    ensures |r| == |s| + 1 && (r[0] == x || (|s| > 0 && r[0] == s[0]))
    decreases |s|
  {
    if |s| == 0 then [x]
    else if key(x) >= key(s[0]) then [x] + s
    else
      var rest := Insert(x, s[1..], key);
      assert key(s[0]) >= key(rest[0]);
      assert forall j :: 0 <= j < |rest| ==> key(rest[0]) >= key(rest[j]);
      assert s == [s[0]] + s[1..];
      [s[0]] + rest
  }

  /** A newest-first permutation of `s`. */
  function SortNewestFirst<T(==)>(s: seq<T>, key: T -> int): (r: seq<T>)
    ensures NewestFirst(r, key)
    ensures multiset(r) == multiset(s)
    decreases |s|
  {
    if |s| == 0 then []
    else
      assert s == [s[0]] + s[1..];
      Insert(s[0], SortNewestFirst(s[1..], key), key)
  }
}

=== FILE: Text.dfy ===
/** The JavaScript string operations the handlers rely on: `trim`,
    `replace` with a non-global pattern (first occurrence only), `split` on a
    one-character separator, and `toLowerCase` restricted to ASCII letters.
 */
module Text {

  /** ECMAScript WhiteSpace and LineTerminator code points: what `trim` strips. */
  predicate IsSpace(c: char)
  {
    || c == '\t' || c == '\n' || c == '\U{B}' || c == '\U{C}' || c == '\r'
    || c == ' ' || c == '\U{A0}' || c == '\U{1680}'
    || ('\U{2000}' <= c <= '\U{200A}')
    || c == '\U{2028}' || c == '\U{2029}' || c == '\U{202F}' || c == '\U{205F}'
    || c == '\U{3000}' || c == '\U{FEFF}'
  }

  /** No white space at either end of `s`. */
  predicate Trimmed(s: string)
  {
    |s| == 0 || (!IsSpace(s[0]) && !IsSpace(s[|s| - 1]))
  }

  /** The index of the first non-space at or after `i` (`|s|` if none). */
  function SkipSpaces(s: string, i: nat): (k: nat)
    requires i <= |s|
    ensures i <= k <= |s|
    ensures forall j :: i <= j < k ==> IsSpace(s[j])
    ensures k == |s| || !IsSpace(s[k])
    decreases |s| - i
  {
    if i < |s| && IsSpace(s[i]) then SkipSpaces(s, i + 1) else i
  }

  /** The end of `s[lo..hi]` once trailing white space is dropped. */
  function DropSpaces(s: string, lo: nat, hi: nat): (e: nat)
    requires lo <= hi <= |s|
    ensures lo <= e <= hi
    ensures forall j :: e <= j < hi ==> IsSpace(s[j])
    ensures e == lo || !IsSpace(s[e - 1])
    decreases hi
  {
    if hi > lo && IsSpace(s[hi - 1]) then DropSpaces(s, lo, hi - 1) else hi
  }

  /** `r` is `s` with only white space removed before index `k` and after `r`. */
  predicate Stripped(s: string, r: string, k: int)
  {
    && 0 <= k <= |s| - |r| && r == s[k..k + |r|]
    && (forall i :: 0 <= i < k ==> IsSpace(s[i]))
    && (forall i :: k + |r| <= i < |s| ==> IsSpace(s[i]))
  }

  /** `String.prototype.trim`: `s` without leading and trailing white space. */
  function Trim(s: string): (r: string)
    ensures Trimmed(r)
    ensures exists k :: Stripped(s, r, k)
  {
    var k := SkipSpaces(s, 0);
    var e := DropSpaces(s, k, |s|);
    var r := s[k..e];
    assert Stripped(s, r, k);
    r
  }

  /** Trimming leaves a string that is already trimmed unchanged. */
  lemma TrimKeepsTrimmed(s: string)
    requires Trimmed(s)
    ensures Trim(s) == s
  {
  }

  /** `pat` occurs in `s` at index `i`. */
  predicate OccursAt(s: string, pat: string, i: nat)
  {
    i + |pat| <= |s| && s[i..i + |pat|] == pat
  }

  /** The index of the first occurrence of `pat` in `s` at or after `from`. */
  function IndexOf(s: string, pat: string, from: nat): (r: int)
    requires from <= |s|
    ensures r == -1 <==> forall i: nat :: from <= i <= |s| ==> !OccursAt(s, pat, i)
    ensures r != -1 ==> from <= r <= |s| && OccursAt(s, pat, r)
                        && forall i: nat :: from <= i < r ==> !OccursAt(s, pat, i)
    decreases |s| - from
  {
    if OccursAt(s, pat, from) then from
    else if from == |s| then -1
    else IndexOf(s, pat, from + 1)
  }

  /** `s.replace(pat, rep)` with a non-global pattern: only the first
      occurrence of `pat` is replaced. */
  function ReplaceFirst(s: string, pat: string, rep: string): (r: string)
    ensures (forall i: nat :: i <= |s| ==> !OccursAt(s, pat, i)) ==> r == s
    ensures forall i: nat :: i <= |s| && OccursAt(s, pat, i)
                              && (forall j: nat :: j < i ==> !OccursAt(s, pat, j)) ==>
              r == s[..i] + rep + s[i + |pat|..]
  {
    var i := IndexOf(s, pat, 0);
    if i == -1 then s else s[..i] + rep + s[i + |pat|..]
  }

  /** A prefix is the first occurrence of itself, so it alone is removed. */
  lemma ReplaceLeadingPattern(pat: string, t: string)
    ensures ReplaceFirst(pat + t, pat, "") == t
  {
    assert OccursAt(pat + t, pat, 0) by {
      assert (pat + t)[0..|pat|] == pat;
    }
    assert (pat + t)[|pat|..] == t;
  }

  /** Without an occurrence of `pat`, replacing it changes nothing. */
  lemma ReplaceAbsentPattern(s: string, pat: string, rep: string)
    requires forall i: nat :: i <= |s| ==> !OccursAt(s, pat, i)
    ensures ReplaceFirst(s, pat, rep) == s
  {
  }

  /** `s.split(sep)` for a one-character separator: the maximal separator-free
      pieces, including empty ones between adjacent separators. */
  function Split(s: string, sep: char): (parts: seq<string>)
    ensures |parts| >= 1
    ensures forall i :: 0 <= i < |parts| ==> sep !in parts[i]
    decreases |s|
  {
    if |s| == 0 then [""]
    else
      var rest := Split(s[1..], sep);
      if s[0] == sep then [""] + rest
      else [[s[0]] + rest[0]] + rest[1..]
  }

  /** A split has one piece more than the string has separators. */
  lemma {:induction false} SplitCount(s: string, sep: char)
    ensures |Split(s, sep)| == multiset(s)[sep] + 1
    decreases |s|
  {
    if |s| > 0 {
      SplitCount(s[1..], sep);
      assert s == [s[0]] + s[1..];
    }
  }

  /** `parts.join(sep)`. */
  function Join(parts: seq<string>, sep: char): string
    requires |parts| >= 1
    decreases |parts|
  {
    if |parts| == 1 then parts[0] else parts[0] + [sep] + Join(parts[1..], sep)
  }

  /** Joining the pieces of a split gives back the original string. */
  lemma {:induction false} JoinSplit(s: string, sep: char)
    ensures Join(Split(s, sep), sep) == s
    decreases |s|
  {
    if |s| > 0 {
      var rest := Split(s[1..], sep);
      JoinSplit(s[1..], sep);
      assert s == [s[0]] + s[1..];
      if s[0] != sep {
        if |rest| > 1 {
          assert rest == [rest[0]] + rest[1..];
          assert ([[s[0]] + rest[0]] + rest[1..])[1..] == rest[1..];
        }
      }
    }
  }

  /** A separator-free piece is kept whole by a split. */
  lemma {:induction false} SplitPiece(a: string, sep: char)
    requires sep !in a
    ensures Split(a, sep) == [a]
    decreases |a|
  {
    if |a| > 0 {
      SplitPiece(a[1..], sep);
      assert a == [a[0]] + a[1..];
    }
  }

  /** A separator-free piece followed by the separator starts a new piece. */
  lemma {:induction false} SplitHead(a: string, sep: char, t: string)
    requires sep !in a
    ensures Split(a + [sep] + t, sep) == [a] + Split(t, sep)
    decreases |a|
  {
    var s := a + [sep] + t;
    if |a| == 0 {
      assert s == [sep] + t;
      assert s[1..] == t;
    } else {
      assert s[1..] == a[1..] + [sep] + t;
      SplitHead(a[1..], sep, t);
      assert a == [a[0]] + a[1..];
    }
  }

  /** Splitting a join of separator-free pieces recovers the pieces. */
  lemma {:induction false} SplitJoin(parts: seq<string>, sep: char)
    requires |parts| >= 1
    requires forall i :: 0 <= i < |parts| ==> sep !in parts[i]
    ensures Split(Join(parts, sep), sep) == parts
    decreases |parts|
  {
    if |parts| == 1 {
      SplitPiece(parts[0], sep);
    } else {
      SplitJoin(parts[1..], sep);
      SplitHead(parts[0], sep, Join(parts[1..], sep));
      assert parts == [parts[0]] + parts[1..];
    }
  }

  /** `toLowerCase` on the ASCII letters. */
  function LowerChar(c: char): char
  {
    if 'A' <= c <= 'Z' then (c as int + 32) as char else c
  }

  function Lower(s: string): (r: string)
    ensures |r| == |s|
    ensures forall i :: 0 <= i < |s| ==> r[i] == LowerChar(s[i])
    decreases |s|
  {
    if |s| == 0 then [] else [LowerChar(s[0])] + Lower(s[1..])
  }

  /** Lower-casing twice is lower-casing once. */
  lemma LowerIdempotent(s: string)
    ensures Lower(Lower(s)) == Lower(s)
  {
  }
}

=== FILE: Users.dfy ===
/** Account handlers: registration, login, profile lookup and listing.

    Password hashing is the parameter `hash` (bcrypt `hashSync`) and password
    checking the parameter `compare` (bcrypt `compare`); the token signer is
    the `encode` of the token service.
 */
module Users {
  import opened Seqs
  import opened Text
  import opened Model
  import opened Jwt
  import opened Follows

  /** The role every new account gets. */
  const RegularRole: string := "ROLE_USER"

  /** A user as sent to clients: every field but the password. */
  datatype Profile = Profile(
    id: Id,
    name: string,
    surname: string,
    nickname: string,
    email: string,
    role: string,
    image: Option<string>)

  /** `user.password = undefined` before the user is sent back. */
  function Strip(u: User): (p: Profile)
    ensures p.id == u.id && p.email == u.email && p.role == u.role
    ensures p.name == u.name && p.surname == u.surname && p.nickname == u.nickname && p.image == u.image
  {
    Profile(u.id, u.name, u.surname, u.nickname, u.email, u.role, u.image)
  }

  /** A stripped profile reveals nothing about the password. */
  lemma StripForgetsPassword(u: User, other: string)
    ensures Strip(u) == Strip(u.(password := other))
  {
  }

  /** Stripping loses only the password: two users with equal profiles differ
      at most in their password. */
  lemma StripKeepsTheRest(u: User, v: User)
    requires Strip(u) == Strip(v)
    ensures u == v.(password := u.password)
  {
  }

  // ---------------------------------------------------------------- register

  datatype RegisterBody = RegisterBody(
    name: Option<string>,
    surname: Option<string>,
    nickname: Option<string>,
    email: Option<string>,
    password: Option<string>)

  predicate AllFieldsPresent(b: RegisterBody)
  {
    Truthy(b.name) && Truthy(b.surname) && Truthy(b.nickname) && Truthy(b.email) && Truthy(b.password)
  }

  datatype RegisterMessage = MissingFields | AlreadyRegistered | Registered

  /** The record a registration inserts: the email as given, the password hashed. */
  function NewUser(b: RegisterBody, id: Id, hash: string -> string): (u: User)
    requires AllFieldsPresent(b)
  {
    User(id, b.name.value, b.surname.value, b.nickname.value, b.email.value,
         hash(b.password.value), RegularRole, None)
  }

  /** The duplicate check as written: a stored email equal to the lower-cased input. */
  predicate EmailTakenAsWritten(users: seq<User>, email: string)
  {
    exists i :: 0 <= i < |users| && users[i].email == Lower(email)
  }

  /** The duplicate check as intended: equal emails up to letter case. */
  predicate EmailTaken(users: seq<User>, email: string)
  {
    exists i :: 0 <= i < |users| && Lower(users[i].email) == Lower(email)
  }

  /** No two accounts share an email up to letter case. */
  predicate EmailsUnique(users: seq<User>)
  {
    forall i, j :: 0 <= i < j < |users| ==> Lower(users[i].email) != Lower(users[j].email)
  }

  /** `registerUser` as written: the input email is lower-cased for the
      lookup but stored as given, so a mixed-case email is never found again. */
  function RegisterUserAsWritten(st: Store, b: RegisterBody, hash: string -> string, newId: Id)
    : (out: Outcome<RegisterMessage>)
    ensures !AllFieldsPresent(b) ==> out == Outcome(Response(400, MissingFields), st)
    ensures AllFieldsPresent(b) && EmailTakenAsWritten(st.users, b.email.value) ==>
              out == Outcome(Response(200, AlreadyRegistered), st)
    ensures out.response.body == Registered <==>
              AllFieldsPresent(b) && !EmailTakenAsWritten(st.users, b.email.value)
    ensures out.response.body == Registered ==>
              && out.response.status == 200
              && |out.store.users| == |st.users| + 1
              && out.store.users[..|st.users|] == st.users
              && var u := out.store.users[|st.users|];
                 && u.id == newId && u.name == b.name.value && u.surname == b.surname.value
                 && u.nickname == b.nickname.value && u.email == b.email.value
                 && u.password == hash(b.password.value)
                 && u.role == "ROLE_USER" && u.image == None
    ensures out.store.(users := st.users) == st
  {
    if !AllFieldsPresent(b) then Outcome(Response(400, MissingFields), st)
    else if EmailTakenAsWritten(st.users, b.email.value) then Outcome(Response(200, AlreadyRegistered), st)
    else Outcome(Response(200, Registered), st.(users := st.users + [NewUser(b, newId, hash)]))
  }

  /** Registering `A` twice as written succeeds twice, leaving two accounts
      with the same email. */
  lemma RegisterAsWrittenAdmitsDuplicate(hash: string -> string)
    ensures var b := RegisterBody(Some("Ana"), Some("Diaz"), Some("ana"), Some("A"), Some("pw"));
            var first := RegisterUserAsWritten(Store([], [], [], []), b, hash, "1");
            var second := RegisterUserAsWritten(first.store, b, hash, "2");
            && first.response.body == Registered
            && second.response.body == Registered
            && !EmailsUnique(second.store.users)
  {
    var b := RegisterBody(Some("Ana"), Some("Diaz"), Some("ana"), Some("A"), Some("pw"));
    assert LowerChar('A') == 'a';
    assert Lower("A") == "a";
    var first := RegisterUserAsWritten(Store([], [], [], []), b, hash, "1");
    assert first.store.users == [NewUser(b, "1", hash)];
    assert "A" != "a" by { assert "A"[0] != "a"[0]; }
    assert !EmailTakenAsWritten(first.store.users, "A");
    var second := RegisterUserAsWritten(first.store, b, hash, "2");
    assert second.store.users == [NewUser(b, "1", hash), NewUser(b, "2", hash)];
    assert Lower(second.store.users[0].email) == Lower(second.store.users[1].email);
  }

  /** `registerUser` with the duplicate check made case-insensitive: 400 when
      a field is missing, the "already exists" message when the email is
      taken, otherwise the new account is appended. */
  function RegisterUser(st: Store, b: RegisterBody, hash: string -> string, newId: Id)
    : (out: Outcome<RegisterMessage>)
    ensures !AllFieldsPresent(b) ==> out == Outcome(Response(400, MissingFields), st)
    ensures AllFieldsPresent(b) && EmailTaken(st.users, b.email.value) ==>
              out == Outcome(Response(200, AlreadyRegistered), st)
    ensures out.response.body == Registered <==>
              AllFieldsPresent(b) && !EmailTaken(st.users, b.email.value)
    ensures out.response.body == Registered ==>
              && out.response.status == 200
              && |out.store.users| == |st.users| + 1
              && out.store.users[..|st.users|] == st.users
              && var u := out.store.users[|st.users|];
                 && u.id == newId && u.name == b.name.value && u.surname == b.surname.value
                 && u.nickname == b.nickname.value && u.email == b.email.value
                 && u.password == hash(b.password.value)
                 && u.role == "ROLE_USER" && u.image == None
    ensures out.store.(users := st.users) == st
  {
    if !AllFieldsPresent(b) then Outcome(Response(400, MissingFields), st)
    else if EmailTaken(st.users, b.email.value) then Outcome(Response(200, AlreadyRegistered), st)
    else Outcome(Response(200, Registered), st.(users := st.users + [NewUser(b, newId, hash)]))
  }

  /** Every registration keeps emails unique up to letter case. */
  lemma RegisterKeepsEmailsUnique(st: Store, b: RegisterBody, hash: string -> string, newId: Id)
    requires EmailsUnique(st.users)
    ensures EmailsUnique(RegisterUser(st, b, hash, newId).store.users)
  {
    var out := RegisterUser(st, b, hash, newId);
    if out.response.body == Registered {
      var us := out.store.users;
      var n := |st.users|;
      forall i, j | 0 <= i < j < |us| ensures Lower(us[i].email) != Lower(us[j].email) {
        if j == n {
          assert us[i] == st.users[i];
        } else {
          assert us[i] == st.users[i] && us[j] == st.users[j];
        }
      }
    }
  }

  /** A second registration with the same email, in any letter case, is refused. */
  lemma RegisterTwiceRefused(st: Store, b: RegisterBody, b2: RegisterBody, hash: string -> string, id1: Id, id2: Id)
    requires AllFieldsPresent(b) && AllFieldsPresent(b2)
    requires Lower(b2.email.value) == Lower(b.email.value)
    ensures var first := RegisterUser(st, b, hash, id1);
            RegisterUser(first.store, b2, hash, id2) == Outcome(Response(200, AlreadyRegistered), first.store)
  {
    var first := RegisterUser(st, b, hash, id1);
    if EmailTaken(st.users, b.email.value) {
      var i :| 0 <= i < |st.users| && Lower(st.users[i].email) == Lower(b.email.value);
      assert first.store.users[i] == st.users[i];
    } else {
      assert first.store.users[|st.users|].email == b.email.value;
    }
  }

  // ------------------------------------------------------------------- login

  /** The login body; `getToken` is the truthiness of `gettoken`. */
  datatype LoginBody = LoginBody(email: Option<string>, password: Option<string>, getToken: bool)

  datatype LoginMessage =
    | LoginMissingFields
    | EmailNotRegistered
    | WrongPassword
    | TokenOnly(token: string)
    | TokenAndUser(token: string, user: Profile)

  /** `findOne({ email })`: the first account with exactly this email. */
  function FindByEmail(users: seq<User>, email: string): (r: Option<User>)
    ensures r.None? <==> forall i :: 0 <= i < |users| ==> users[i].email != email
    ensures r.Some? ==> exists i :: 0 <= i < |users| && users[i] == r.value && r.value.email == email
                                    && forall j :: 0 <= j < i ==> users[j].email != email
  {
    First(users, (u: User) => u.email == email)
  }

  /** `loginUser`: 400 for a missing field, 404 for an unknown email (compared
      exactly, not lower-cased), 500 for a wrong password, otherwise a token. */
  function LoginUser(st: Store, b: LoginBody, compare: (string, string) -> bool,
                     encode: Payload -> string, now: int): (r: Response<LoginMessage>)
    ensures !(Truthy(b.email) && Truthy(b.password)) ==> r == Response(400, LoginMissingFields)
    ensures Truthy(b.email) && Truthy(b.password) ==>
              (r == Response(404, EmailNotRegistered) <==>
                 forall i :: 0 <= i < |st.users| ==> st.users[i].email != b.email.value)
    ensures r.status == 200 ==>
              exists i :: 0 <= i < |st.users| && st.users[i].email == b.email.value
                          && compare(b.password.value, st.users[i].password)
                          && (forall j :: 0 <= j < i ==> st.users[j].email != b.email.value)
                          && r.body == (if b.getToken then TokenOnly(CreateToken(st.users[i], now, encode))
                                        else TokenAndUser(CreateToken(st.users[i], now, encode), Strip(st.users[i])))
    ensures Truthy(b.email) && Truthy(b.password) && FindByEmail(st.users, b.email.value).Some? ==>
              var u := FindByEmail(st.users, b.email.value).value;
              && (r.status == 200 <==> compare(b.password.value, u.password))
              && (!compare(b.password.value, u.password) ==> r == Response(500, WrongPassword))
    ensures r.status == 500 ==> r.body == WrongPassword
  {
    if !(Truthy(b.email) && Truthy(b.password)) then Response(400, LoginMissingFields)
    else
      match FindByEmail(st.users, b.email.value)
      case None => Response(404, EmailNotRegistered)
      case Some(u) =>
        if !compare(b.password.value, u.password) then Response(500, WrongPassword)
        else
          var token := CreateToken(u, now, encode);
          if b.getToken then Response(200, TokenOnly(token))
          else Response(200, TokenAndUser(token, Strip(u)))
  }

  /** A password that does not match the stored hash never logs in. */
  lemma WrongPasswordRefused(st: Store, b: LoginBody, compare: (string, string) -> bool,
                             encode: Payload -> string, now: int)
    requires Truthy(b.email) && Truthy(b.password)
    requires forall i :: 0 <= i < |st.users| ==> !compare(b.password.value, st.users[i].password)
    ensures LoginUser(st, b, compare, encode, now).status != 200
  {
  }

  /** Round trip: right after registering, logging in with the same email and
      password returns a token for the new account, provided `compare`
      accepts a password against its own hash. */
  lemma RegisterThenLogin(st: Store, b: RegisterBody, hash: string -> string, newId: Id,
                          compare: (string, string) -> bool, encode: Payload -> string, now: int)
    requires AllFieldsPresent(b) && !EmailTaken(st.users, b.email.value)
    requires compare(b.password.value, hash(b.password.value))
    ensures var after := RegisterUser(st, b, hash, newId).store;
            var u := NewUser(b, newId, hash);
            LoginUser(after, LoginBody(b.email, b.password, false), compare, encode, now)
              == Response(200, TokenAndUser(CreateToken(u, now, encode), Strip(u)))
  {
    var after := RegisterUser(st, b, hash, newId).store;
    var u := NewUser(b, newId, hash);
    var n := |st.users|;
    assert after.users[n] == u;
    forall j | 0 <= j < n ensures after.users[j].email != b.email.value {
      assert after.users[j] == st.users[j];
    }
    var found := FindByEmail(after.users, b.email.value);
    assert found.Some?;
    assert found.value == u;
  }

  // ------------------------------------------------------------ user lookup

  predicate IsHexDigit(c: char)
  {
    ('0' <= c <= '9') || ('a' <= c <= 'f') || ('A' <= c <= 'F')
  }

  /** `ObjectId.isValid` on a string: 24 hexadecimal digits, in either case. */
  predicate IsObjectId(s: string)
  {
    |s| == 24 && forall i :: 0 <= i < |s| ==> IsHexDigit(s[i])
  }

  /** Letter case does not matter to the validity check, and lower-casing a
      valid id keeps it valid. */
  lemma ObjectIdIgnoresCase(s: string)
    ensures IsObjectId(Lower(s)) <==> IsObjectId(s)
  {
    forall i | 0 <= i < |s| ensures IsHexDigit(Lower(s)[i]) <==> IsHexDigit(s[i]) {
      assert Lower(s)[i] == LowerChar(s[i]);
    }
  }

  /** The edge each way between the caller and the viewed user, if stored. */
  datatype Mutual = Mutual(following: Option<Follow>, followed: Option<Follow>)

  /** `findOne` in `coll` for the edge me -> u and for u -> me. */
  function Decoration(coll: seq<Follow>, me: Id, u: Id): (m: Mutual)
    ensures m.following.Some? <==> Follow(me, u) in coll
    ensures m.following.Some? ==> m.following.value == Follow(me, u)
    ensures m.followed.Some? <==> Follow(u, me) in coll
    ensures m.followed.Some? ==> m.followed.value == Follow(u, me)
  {
    Mutual(First(coll, (e: Follow) => e == Follow(me, u)), First(coll, (e: Follow) => e == Follow(u, me)))
  }

  /** The collection named `user`, which no handler ever writes. */
  const UserCollection: seq<Follow> := []

  /** `followThisUser` as written: both lookups go to the collection `user`
      instead of `follows`, so neither ever finds an edge. */
  function FollowThisUserAsWritten(me: Id, u: Id): (m: Mutual)
    ensures m.following.None? && m.followed.None?
  {
    Decoration(UserCollection, me, u)
  }

  /** `followThisUser` as intended: both lookups go to the follows collection. */
  function FollowThisUser(fs: seq<Follow>, me: Id, u: Id): (m: Mutual)
    ensures m.following.Some? <==> Follow(me, u) in fs
    ensures m.following.Some? ==> m.following.value == Follow(me, u)
    ensures m.followed.Some? <==> Follow(u, me) in fs
    ensures m.followed.Some? ==> m.followed.value == Follow(u, me)
  {
    Decoration(fs, me, u)
  }

  /** As written, a profile never shows an existing edge, which the intended
      lookup reports. */
  lemma FollowThisUserAsWrittenMissesEdges(fs: seq<Follow>, me: Id, u: Id)
    requires Follow(me, u) in fs || Follow(u, me) in fs
    ensures FollowThisUserAsWritten(me, u) == Mutual(None, None)
    ensures FollowThisUser(fs, me, u) != Mutual(None, None)
  {
  }

  /** The profile decoration agrees with the caller's aggregated relations. */
  lemma FollowThisUserAgreesWithRelations(fs: seq<Follow>, me: Id, u: Id)
    ensures FollowThisUser(fs, me, u).following.Some? <==> u in FollowingOf(fs, me)
    ensures FollowThisUser(fs, me, u).followed.Some? <==> u in FollowersOf(fs, me)
  {
    FollowingCounts(fs, me, u);
    FollowersCounts(fs, me, u);
  }

  datatype UserView =
    | InvalidUserId
    | UserNotFound
    | UserFound(user: Profile, following: Option<Follow>, followed: Option<Follow>)

  /** `getUser`: 400 for a malformed id, 404 for an unknown one, otherwise the
      stripped profile with the edges each way between caller and user.
      Stored user ids are the lower-case hex of their ObjectId, and
      `new ObjectId(id)` reads hex digits in either case, so the account is
      looked up by the lower-cased id; the edges are looked up with the id
      exactly as given. */
  function GetUser(st: Store, caller: Id, id: string): (r: Response<UserView>)
    ensures !IsObjectId(id) ==> r == Response(400, InvalidUserId)
    ensures IsObjectId(id) && (forall i :: 0 <= i < |st.users| ==> st.users[i].id != Lower(id)) ==>
              r == Response(404, UserNotFound)
    ensures r.status == 200 <==>
              IsObjectId(id) && exists i :: 0 <= i < |st.users| && st.users[i].id == Lower(id)
    ensures r.status == 200 ==>
              && r.body.UserFound?
              && (exists i :: 0 <= i < |st.users| && st.users[i].id == Lower(id)
                              && r.body.user == Strip(st.users[i]))
              && r.body.following == (if Follow(caller, id) in st.follows then Some(Follow(caller, id)) else None)
              && r.body.followed == (if Follow(id, caller) in st.follows then Some(Follow(id, caller)) else None)
  {
    if !IsObjectId(id) then Response(400, InvalidUserId)
    else
      match First(st.users, (u: User) => u.id == Lower(id))
      case None => Response(404, UserNotFound)
      case Some(u) =>
        var m := FollowThisUser(st.follows, caller, id);
        Response(200, UserFound(Strip(u), m.following, m.followed))
  }

  /** An id and its lower-cased spelling find the same account. */
  lemma GetUserIgnoresHexCase(st: Store, caller: Id, id: string)
    ensures GetUser(st, caller, id).status == GetUser(st, caller, Lower(id)).status
    ensures GetUser(st, caller, id).status == 200 ==>
              GetUser(st, caller, id).body.user == GetUser(st, caller, Lower(id)).body.user
  {
    ObjectIdIgnoresCase(id);
    LowerIdempotent(id);
  }

  /** `getUsers`: every account, in store order, each without its password. */
  function GetUsers(st: Store): (r: Response<seq<Profile>>)
    ensures r.status == 200
    ensures |r.body| == |st.users|
    ensures forall i :: 0 <= i < |st.users| ==> r.body[i] == Strip(st.users[i])
  {
    Response(200, Map(st.users, Strip))
  }
}
